=== FILE: README.md ===
# Physiotherapy practice website: form handling, modelled in Dafny

The site takes two kinds of submission through one endpoint, `submit_contact`.
A **contact message** comes from the contact page. An **appointment booking**
comes from the booking page and is marked by the hidden field
`service = "appointment-booking"`. The handler checks the required fields in a
fixed order and formats a plain-text notification mail. It passes the mail to
`send_email`, which guards on the relay credentials and turns every exception
into `False`. It then renders a confirmation page, whether or not the mail went
out. In the browser, `validateField` and `validateForm` check fields before
submission, and `formatPhoneNumber` reformats telephone inputs as the user types.
Two small trackers report scroll depth and time on page to Google Ads.

The repository ships two deployments of the handler. This project models both
with one definition, parameterised by a `Variant`:

- `Submission.Production` is application.py. Its policy is strict: a booking
  must also carry a condition text, a service type and a consultation type.
  The notification goes to `MAIL_USERNAME`.
- `Submission.Development` is app_simple.py. Its policy is lenient: a booking
  needs only a name and an email. The notification goes to
  `MAIL_DEFAULT_SENDER` when that variable is set, and otherwise to the
  submitter's own address.

The modules follow the program's structure:

| file | module | what it holds |
|---|---|---|
| base.dfy | `Base` | `Option` |
| py_values.dfy | `PyValues` | `request.form.get`, Python truthiness, `v or 'default'`, f-string rendering of `None` |
| py_int.dfy | `PyInt` | Python's `int(str)` as used on `MAIL_PORT`, and decimal rendering |
| message.dfy | `Message` | the notification body as an ordered list of `Caption: value` lines |
| dispatch.dfy | `Dispatch` | `send_email`: configuration, credential guard, the SMTP exchange against a relay oracle |
| submission.dfy | `Submission` | `submit_contact`: classification, validation order, body and subject, recipient, response |
| submission_properties.dfy | `SubmissionProperties` | the handler's properties across all inputs, and both deployments compared |
| client_validation.dfy | `ClientValidation` | `trim`, the e-mail and phone patterns, `validateField`, `validateForm` |
| phone_format.dfy | `PhoneFormat` | `formatPhoneNumber` |
| tracking.dfy | `Tracking` | the scroll-depth and time-on-page trackers and the `gtag` events they send |

Modelling choices:

- The posted form is a `map<string, string>`. An absent key is Python's `None`.
- The mail relay is a parameter `raises: SmtpCommand -> bool`. It says which
  command of the exchange throws. A `DispatchReport` records whether
  `send_email` returned `True` and which commands it issued.
- The clock (`datetime.now()`) becomes a `submittedAt` string parameter.
- The browser DOM becomes a list of `Control` records.
- The scroll percentage is an integer input, already rounded.
- Each `gtag` call becomes a `GtagEvent` value in the returned event list.

Points where the two deployments differ, or where the code does more than it
appears to at first reading:

- app_simple.py falls back to the submitter's own address when
  `MAIL_DEFAULT_SENDER` is unset (app_simple.py:157), and checks only name,
  email and, for contact messages, the message text. application.py always
  addresses `MAIL_USERNAME` (application.py:185) and also requires the condition
  text, service type and consultation type of a booking. Both are modelled as
  written. `SubmissionProperties.DevelopmentRecipientFallback` states the
  fallback, and `SubmissionProperties.LenientWeakensStrict` relates the two
  policies.
- `send_email` parses `MAIL_PORT` with `int()` inside its `try`, before the
  credential guard (application.py:24). So a malformed port also yields `False`
  without any connection. `Dispatch.SendEmail` states both cases.
- The appointment subject in application.py:162 does not start with the
  hospital emoji. Its bytes are the emoji's UTF-8 encoding read as Mac Roman,
  which gives the four characters U+F8FF U+00FC U+00E8 U+2022. app_simple.py:134
  has the real emoji U+1F3E5. Each `Variant` carries its own mark.

## Model

| member | source | states |
|---|---|---|
| PyValues.Or | application.py:141 | `v or 'placeholder'` gives the posted text when it is non-empty and the placeholder otherwise, so a non-empty placeholder never yields a blank value |
| PyInt.ParseInt | application.py:24 | blank text raises; text is accepted exactly when, with surrounding whitespace stripped (every `str.isspace()` character except the separators U+001C to U+001F), it is a digit run (single underscores allowed between digits) with at most one sign in front; an unsigned run reads as the number it denotes, a signed one as that number with the sign applied, so only a minus makes the result negative |
| PyInt.DecimalRoundTrip | application.py:24 | the decimal text of any non-negative number parses back to that number under Python's `int()` rules, so every ordinary `MAIL_PORT` value is read as its port |
| PyInt.SignedDecimalRoundTrip | application.py:24 | `-` or `+` in front of the decimal text of a number parses to that number negated or unchanged |
| PyInt.PortPadding | application.py:24 | a port padded with an ordinary space and an ideographic space reads as the number, while one led by the separator U+001C raises |
| Dispatch.Run | application.py:42-54 | the relay commands run in order and stop at the first one that raises; the call succeeds exactly when none raises, and the issued commands are a prefix of the exchange that ends at the failing command |
| Dispatch.SendEmail | application.py:20-54 | with a missing or empty username or password, or a port `int()` rejects, the result is `False` and no connection is attempted; with both set and a port that parses, a connection to the configured host and port is always attempted; any session is a prefix of the configured exchange, nothing is issued after the first command that raises, and a failed session ends at that command; the result is `True` exactly when credentials are set, the port parses and no command raises; a success sent from the username and ended with `quit` |
| Submission.Classify | application.py:97 | a submission is a booking exactly when `service` was posted and equals `appointment-booking` |
| Submission.Check | application.py:99-168 | a submission is accepted exactly when every required field of its kind and policy is non-empty; otherwise the first missing field in check order is reported with that field's message, redirecting to the form of the submission's kind |
| Submission.AppointmentBody | application.py:134-160 | the booking notification names the submitter and gives the email they posted, or `None` for either that was not posted |
| Submission.ContactBody | application.py:170-180 | the contact notification names the submitter and gives the email they posted, or `None` for either that was not posted |
| Submission.Subject | application.py:162-182 | a contact subject is `New Contact Form Submission from ` followed by the posted name; a booking subject is the deployment's mark and ` NEW APPOINTMENT BOOKING - `, then exactly the posted name, then the consultation type in parentheses |
| Submission.Recipient | app_simple.py:157 | application.py addresses `MAIL_USERNAME` whatever its value; app_simple.py addresses `MAIL_DEFAULT_SENDER` whenever it is set, even to an empty value, and otherwise the posted email, or nobody when none was posted |
| Submission.SubmitContact | application.py:83-200 | a rejected submission redirects to its own form with the first failed check's message and sends nothing; an accepted one is confirmed with the posted name, its kind and that kind's thank-you text, and exactly one mail, with that kind's subject and body, goes to the deployment's recipient, its outcome being `send_email`'s |
| SubmissionProperties.NameAndEmailCheckedFirst | application.py:99-104 | a missing name or email is reported first, with the generic message, under either policy, redirecting by kind |
| SubmissionProperties.RedirectFollowsKind | application.py:100-123 | every rejection redirects to the booking form exactly when `service` is `appointment-booking` |
| SubmissionProperties.StrictAppointmentChecksInOrder | application.py:106-123 | a strict booking reports the first missing one of condition, service type and consultation type, each with its own message, and passes exactly when all three are present |
| SubmissionProperties.ContactNeedsMessage | app_simple.py:136-140 | a named contact message passes exactly when it has a message text, and is otherwise sent back to the contact form |
| SubmissionProperties.LenientAcceptsNamedAppointments | app_simple.py:93-103 | under the lenient policy every booking with a name and an email passes |
| SubmissionProperties.LenientWeakensStrict | app_simple.py:86-140 | the policies agree on contact messages, and the lenient one accepts everything the strict one accepts |
| SubmissionProperties.AppointmentLayout | application.py:134-160 | the booking notification always lists the same fourteen captions in the same order, whatever was posted |
| SubmissionProperties.ContactLayout | application.py:170-180 | the contact notification always lists its six captions in order, and shows the posted phone, service, message and time stamp, `None` for a field not posted |
| SubmissionProperties.TemplatesComplete | application.py:134-180 | every caption of either notification can be looked up in the mail, and no caption occurs twice in it |
| SubmissionProperties.AppointmentLookup | application.py:134-160 | a caption of the booking notification is found in the first section that holds it |
| SubmissionProperties.AppointmentPlaceholders | application.py:125-156 | absent or empty age, pain level and duration read `Not specified`, absent or empty date and time read `Flexible`, urgency reads `Routine`, first-time reads `Yes` exactly when ticked, and the time stamp is recorded |
| SubmissionProperties.PlaceholdersNeverBlank | application.py:141-154 | no field with a placeholder is ever blank in the booking notification |
| SubmissionProperties.AppointmentVerbatimFields | app_simple.py:110-123 | phone, service type, consultation type and condition show the posted text, and a field not posted shows `None` |
| SubmissionProperties.ContactSubjectRoundTrip | application.py:182 | the submitter's name can be read back from a contact subject |
| SubmissionProperties.AppointmentSubjectShape | app_simple.py:134 | a booking subject starts with the deployment's mark, follows it with ` NEW APPOINTMENT BOOKING - ` and the booker's name, and ends with the consultation type in parentheses |
| SubmissionProperties.SubjectRevealsKind | application.py:162-182 | in both deployments no booking subject equals a contact subject |
| SubmissionProperties.ResponseIgnoresRelay | application.py:186-200 | the browser's response is the same whatever the relay's commands raise or return |
| SubmissionProperties.ConfirmedDespiteFailedDelivery | app_simple.py:158-172 | an accepted submission is confirmed even when every relay command raises, and the failed dispatch is recorded |
| SubmissionProperties.ProductionMailsOperator | application.py:185-186 | application.py always addresses the notification to `MAIL_USERNAME`, and sends nothing when that is unset or empty |
| SubmissionProperties.DevelopmentRecipientFallback | app_simple.py:157 | app_simple.py addresses the notification to `MAIL_DEFAULT_SENDER` when set, even to an empty value, and otherwise to the submitter's own email |
| SubmissionProperties.JaneDoePassesStrictChecks | application.py:106-123 | a booking with every required field passes the strict checks |
| SubmissionProperties.JaneDoeSubject | application.py:162 | that booking's subject is the mark followed by ` NEW APPOINTMENT BOOKING - Jane Doe (Video)` |
| SubmissionProperties.JaneDoeIsBooked | application.py:194-200 | that booking is confirmed as an appointment with the appointment thank-you text, and its mail carries that subject |
| ClientValidation.Trim | static/js/main.js:65 | the trimmed value is a slice of the input with only whitespace cut off on either side; it is empty exactly when the input is all whitespace, and otherwise starts and ends with a non-space character |
| ClientValidation.EmailTestMatchesPattern | static/js/main.js:81-82 | the e-mail test accepts exactly what `/^[^\s@]+@[^\s@]+\.[^\s@]+$/` matches |
| ClientValidation.PhoneTestMatchesPattern | static/js/main.js:91-92 | the phone test accepts exactly what `/^[\+]?[\d\s\-\(\)\.]{10,}$/` matches |
| ClientValidation.ValidateField | static/js/main.js:64-103 | a required blank field fails with `This field is required`; a blank optional field passes; otherwise a field passes exactly when e-mail and tel fields match their patterns after trimming; a filled-in e-mail or tel field that fails its pattern gets that pattern's message, and each pattern message is given only for its own field type |
| ClientValidation.ValidateRequiredControls | static/js/main.js:107-114 | every required control is validated, and the pass succeeds exactly when each one is valid |
| ClientValidation.ConsentBoxesTicked | static/js/main.js:117-125 | the pass succeeds exactly when every required checkbox is ticked |
| ClientValidation.ValidateForm | static/js/main.js:106-128 | a form is valid exactly when every required control passes `validateField` and every required checkbox is ticked |
| PhoneFormat.Digits | static/js/main.js:300 | stripping non-digits leaves only ASCII digits, keeps every digit as often as it occurs, and never lengthens the value |
| PhoneFormat.FormatPhoneNumber | static/js/main.js:299-303 | the new value keeps exactly the old digits in order, adding only layout punctuation; fewer than ten digits stay bare; with ten or more, `(`, `)`, space and `-` sit at positions 0, 4, 5 and 9, and the value ends with a digit |
| PhoneFormat.LayoutKeepsDigits | static/js/main.js:301 | laying out a digit string keeps its digits, adds only punctuation and ends with its last digit |
| PhoneFormat.FormatIdempotent | static/js/main.js:299-303 | reformatting an already formatted value changes nothing |
| PhoneFormat.FormatDeterminedByDigits | static/js/main.js:300-301 | two values format alike exactly when they hold the same digits |
| PhoneFormat.FormattedPhoneValidates | static/js/main.js:89-97 | a value formatted from ten or more digits passes the phone check of `validateField`, and one formatted from one to nine digits fails it with the phone message |
| Tracking.ScrollFrom | static/js/main.js:189-198 | the walk over the remaining thresholds fires exactly the unfired ones at or below the percentage, each once and in increasing order, and sets no other flag |
| Tracking.OnScroll | static/js/main.js:186-199 | one scroll fires exactly the unfired thresholds at or below the percentage, in increasing order, and flags only go from false to true |
| Tracking.ScrollEvents | static/js/main.js:192-196 | the thresholds fired on one scroll are reported one `gtag` event each, in the same order |
| Tracking.ScrollEventTexts | static/js/main.js:192-196 | a threshold is reported with the label `<t>_percent`, the value `<t>` and the category `engagement` |
| Tracking.RunScroll | static/js/main.js:186-198 | over a series of scrolls, set flags stay set and only thresholds that had not fired before are reported |
| Tracking.ScrollTrace | static/js/main.js:179-198 | over any series of scrolls each threshold fires at most once, and fires exactly when it was unfired and some scroll reached it; set flags stay set |
| Tracking.FreshScrollTrace | static/js/main.js:179-198 | from page load, a threshold is reported exactly once if some scroll reached it, and never otherwise |
| Tracking.ScrollSeriesSendsFired | static/js/main.js:186-198 | over any series of scrolls, the events sent are one per fired threshold, in firing order |
| Tracking.FreshScrollEvents | static/js/main.js:179-198 | from page load, no scroll event is ever sent twice, and the event for a threshold is sent exactly when some scroll reached it |
| Tracking.Tick | static/js/main.js:203-224 | a running tracker adds 30 seconds and stops exactly at 300; a stopped one changes nothing and sends nothing; an event is sent exactly at a milestone and carries its label |
| Tracking.Ticks | static/js/main.js:202-224 | a cleared interval never calls back; a tracker still running after n callbacks has gained 30 seconds for each; each callback sends at most one event |
| Tracking.TimeTrace | static/js/main.js:202-224 | after n callbacks from page load the clock reads 30 seconds per tick up to 300, the interval is cleared from the tenth tick on, and the events sent are the milestones reached so far |
| Tracking.MilestonesInOrder | static/js/main.js:207-222 | the milestones are sent as 30 seconds, 2 minutes, 5 minutes, in that order, and never more than these three |

## Left out

- Flask routing, templates, `flash` storage, `redirect`/`url_for`: the response is a `Response` value naming the page and the flashed text.
- The static page routes, the 404/500 handlers and `track_conversion` (a pass-through of `request.get_json()`).
- The outer `except` of `submit_contact` (application.py:202-207, app_simple.py:174-179): no modelled step raises outside `send_email`.
- MIME construction and the SMTP and STARTTLS protocols: the relay is an oracle over the five commands of the exchange.
- Reading the environment and `.env`: configuration is a `Config` record of optional strings.
- `datetime.now()` and its `%Y-%m-%d %H:%M:%S` formatting: the time stamp is a parameter.
- The exact indentation and blank-line whitespace of the triple-quoted bodies: a body is a list of text, field and blank lines.
- All logging, including the success log that depends on `send_email`'s result.
- Multi-valued form fields: a field carries only the value `request.form.get` returns.
- PyInt.ParseInt: non-ASCII Unicode digits, which Python's `int()` also accepts, are not modelled; nor is the limit of Python 3.11 and later, which rejects decimal text of more than 4300 digits, so the model reads a `MAIL_PORT` of any length.
- A relay that stops answering: `smtplib.SMTP(...)` is created without a timeout (application.py:42, app_simple.py:38), so such a relay blocks the request indefinitely. The relay here is an oracle whose commands either raise or return, so a hang cannot be expressed.
- Everything DOM, CSS or animation in main.js: CSS classes, error elements, IntersectionObserver, smooth scrolling, navbar styling, tooltips, the alert helpers.
- `setInterval`/`setTimeout` scheduling: the time tracker is stepped one callback at a time.
- Tracking.OnScroll: takes the already rounded integer percentage; the floating-point `Math.round` division, and the `NaN` or infinite values it gives on a page that cannot scroll, are not modelled.
- The button-click and external-link trackers in `initGoogleAdsTracking`: they forward text without keeping state.

=== FILE: base.dfy ===
/** Small shared datatypes. */
module Base {

  /** A value that may be absent: Python's `None`, an unset environment variable,
      a form field that was not posted. */
  datatype Option<+T> = None | Some(value: T) {

    /** The carried value, or `default` when absent. */
    function GetOr(default: T): T {
      match this
      case Some(v) => v
      case None => default
    }
  }

  /** An ASCII decimal digit: `\d` in a JavaScript pattern without the `u`
      flag, and the digits this model lets Python's `int()` read. */
  predicate IsAsciiDigit(c: char) {
    '0' <= c <= '9'
  }
}

=== FILE: client_validation.dfy ===
/** The browser-side checks of the site's forms, `validateField` and
    `validateForm`, with the DOM reduced to a list of controls. */
module ClientValidation {
  import opened Base

  /** JavaScript whitespace (WhiteSpace and LineTerminator): what `trim()`
      strips and what `\s` matches. */
  predicate IsJsSpace(c: char) {
    || c == '\t' || c == '\n' || c == '\U{B}' || c == '\U{C}' || c == '\r' || c == ' '
    || c == '\U{A0}' || c == '\U{1680}' || ('\U{2000}' <= c <= '\U{200A}')
    || c == '\U{2028}' || c == '\U{2029}' || c == '\U{202F}' || c == '\U{205F}'
    || c == '\U{3000}' || c == '\U{FEFF}'
  }

  /** Every character of `s` is whitespace (so `s.trim()` is empty). */
  predicate AllSpace(s: string) {
    forall k :: 0 <= k < |s| ==> IsJsSpace(s[k])
  }

  /** Drops leading whitespace: the result is a suffix of `s` and only spaces were dropped. */
  function TrimStart(s: string): (t: string)
    ensures |t| <= |s| && t == s[|s| - |t|..]
    ensures forall k :: 0 <= k < |s| - |t| ==> IsJsSpace(s[k])
    ensures t != [] ==> !IsJsSpace(t[0])
    ensures AllSpace(s) ==> t == []
    decreases |s|
  {
    if s != [] && IsJsSpace(s[0]) then TrimStart(s[1..]) else s
  }

  /** Drops trailing whitespace: the result is a prefix of `s` and only spaces were dropped. */
  function TrimEnd(s: string): (t: string)
    ensures |t| <= |s| && t == s[..|t|]
    ensures forall k :: |t| <= k < |s| ==> IsJsSpace(s[k])
    ensures t != [] ==> !IsJsSpace(t[|t| - 1])
    decreases |s|
  {
    if s != [] && IsJsSpace(s[|s| - 1]) then TrimEnd(s[..|s| - 1]) else s
  }

  /** A suffix of `s` that drops only spaces, cut down to a prefix that drops
      only spaces, is a slice of `s` with only spaces around it. */
  lemma CutSpaces(s: string, u: string, t: string)
    requires |u| <= |s| && u == s[|s| - |u|..]
    requires forall k :: 0 <= k < |s| - |u| ==> IsJsSpace(s[k])
    requires |t| <= |u| && t == u[..|t|]
    requires forall k :: |t| <= k < |u| ==> IsJsSpace(u[k])
    ensures exists i, j :: 0 <= i <= j <= |s| && t == s[i..j] && AllSpace(s[..i]) && AllSpace(s[j..])
  {
    var i := |s| - |u|;
    var j := i + |t|;
    assert t == s[i..j];
    assert AllSpace(s[..i]);
    assert AllSpace(s[j..]) by {
      assert forall k :: 0 <= k < |s| - j ==> s[j..][k] == u[|t| + k];
    }
  }

  /** `s.trim()`. */
  function Trim(s: string): (t: string)
    // the result is the input with whitespace cut from both ends ...
    ensures exists i, j :: 0 <= i <= j <= |s| && t == s[i..j] && AllSpace(s[..i]) && AllSpace(s[j..])
    // ... as much as there is
    ensures t == "" <==> AllSpace(s)
    ensures t != "" ==> !IsJsSpace(t[0]) && !IsJsSpace(t[|t| - 1])
  {
    var u := TrimStart(s);
    var t := TrimEnd(u);
    assert t == "" ==> u == [];
    CutSpaces(s, u, t);
    t
  }

  // ---------------------------------------------------------------------------
  // The e-mail pattern /^[^\s@]+@[^\s@]+\.[^\s@]+$/
  // ---------------------------------------------------------------------------

  /** `[^\s@]`. */
  predicate EmailChar(c: char) {
    !IsJsSpace(c) && c != '@'
  }

  /** What the e-mail pattern accepts: an `@` at `at` and a `.` at `dot` with at
      least one character before the `@`, between them, and after the `.`, and
      every other character neither whitespace nor `@`. */
  ghost predicate MatchesEmailPattern(s: string) {
    exists at, dot ::
      && 0 < at && at + 1 < dot < |s| - 1
      && s[at] == '@' && s[dot] == '.'
      && forall k :: 0 <= k < |s| && k != at ==> EmailChar(s[k])
  }

  /** The index of the first `c` in `s`, or `|s|` when there is none. */
  function IndexOf(s: string, c: char): (i: nat)
    ensures i <= |s|
    ensures i < |s| ==> s[i] == c
    ensures forall k :: 0 <= k < i ==> s[k] != c
    decreases |s|
  {
    if s == [] then 0
    else if s[0] == c then 0
    else 1 + IndexOf(s[1..], c)
  }

  /** A single-pass test of the e-mail pattern: find the `@`, then look for an
      inner `.` after it. */
  predicate EmailLooksValid(s: string) {
    var at := IndexOf(s, '@');
    && 0 < at && at + 2 < |s|
    && (forall k :: 0 <= k < |s| && k != at ==> EmailChar(s[k]))
    && '.' in s[at + 2..|s| - 1]
  }

  /** The test accepts exactly what the pattern matches. */
  lemma EmailTestMatchesPattern(s: string)
    ensures EmailLooksValid(s) <==> MatchesEmailPattern(s)
  {
    var at := IndexOf(s, '@');
    if EmailLooksValid(s) {
      var inner := s[at + 2..|s| - 1];
      var j :| 0 <= j < |inner| && inner[j] == '.';
      assert s[at + 2 + j] == '.';
    }
    if MatchesEmailPattern(s) {
      var a, d :| && 0 < a && a + 1 < d < |s| - 1 && s[a] == '@' && s[d] == '.'
                  && forall k :: 0 <= k < |s| && k != a ==> EmailChar(s[k]);
      assert at == a;
      assert s[at + 2..|s| - 1][d - at - 2] == '.';
    }
  }

  // ---------------------------------------------------------------------------
  // The phone pattern /^[\+]?[\d\s\-\(\)\.]{10,}$/
  // ---------------------------------------------------------------------------

  /** `[\d\s\-\(\)\.]`. */
  predicate PhoneChar(c: char) {
    IsAsciiDigit(c) || IsJsSpace(c) || c == '-' || c == '(' || c == ')' || c == '.'
  }

  /** `[\d\s\-\(\)\.]{10,}` on the whole of `t`. */
  predicate PhoneBody(t: string) {
    |t| >= 10 && forall k :: 0 <= k < |t| ==> PhoneChar(t[k])
  }

  /** What the phone pattern accepts, with `[\+]?` read as its two alternatives. */
  ghost predicate MatchesPhonePattern(s: string) {
    PhoneBody(s) || (|s| > 0 && s[0] == '+' && PhoneBody(s[1..]))
  }

  /** A single-pass test of the phone pattern: consume a leading `+` if there is one. */
  predicate PhoneLooksValid(s: string) {
    PhoneBody(if |s| > 0 && s[0] == '+' then s[1..] else s)
  }

  /** Consuming the `+` greedily loses nothing, as `+` is not a phone character. */
  lemma PhoneTestMatchesPattern(s: string)
    ensures PhoneLooksValid(s) <==> MatchesPhonePattern(s)
  {
    if |s| > 0 && s[0] == '+' {
      assert !PhoneChar(s[0]);
    }
  }

  // ---------------------------------------------------------------------------
  // validateField / validateForm
  // ---------------------------------------------------------------------------

  /** The element kinds the form query distinguishes. */
  datatype Tag = InputTag | TextAreaTag | SelectTag | OtherTag

  /** The `type` of a control as far as the checks care. */
  datatype InputType = EmailType | TelType | CheckboxType | OtherType

  /** One form control: its element, its type, its current value, whether it
      carries `required`, and (for a checkbox) whether it is ticked. */
  datatype Control = Control(tag: Tag, inputType: InputType, value: string, required: bool, checked: bool)

  /** The outcome of `validateField`, with the message shown under an invalid field. */
  datatype Verdict = Valid | Invalid(message: string)

  const MsgFieldRequired: string := "This field is required"
  const MsgBadEmail: string := "Please enter a valid email address"
  const MsgBadPhone: string := "Please enter a valid phone number"

  /** `validateField(field)`. */
  function ValidateField(c: Control): (v: Verdict)
    // a required field left blank (after trimming) is the first error reported
    ensures v == Invalid(MsgFieldRequired) <==> c.required && AllSpace(c.value)
    // a blank field that is not required is always valid
    ensures !c.required && AllSpace(c.value) ==> v.Valid?
    // otherwise email and tel fields must match their pattern
    ensures v.Valid? <==>
              && !(c.required && AllSpace(c.value))
              && (c.inputType == EmailType && !AllSpace(c.value) ==> MatchesEmailPattern(Trim(c.value)))
              && (c.inputType == TelType && !AllSpace(c.value) ==> MatchesPhonePattern(Trim(c.value)))
    // a filled-in field that fails its pattern gets that pattern's message, and
    // each pattern message is given only for its own field type
    ensures c.inputType == EmailType && !AllSpace(c.value) && !MatchesEmailPattern(Trim(c.value)) ==>
              v == Invalid(MsgBadEmail)
    ensures c.inputType == TelType && !AllSpace(c.value) && !MatchesPhonePattern(Trim(c.value)) ==>
              v == Invalid(MsgBadPhone)
    ensures v == Invalid(MsgBadEmail) ==> c.inputType == EmailType
    ensures v == Invalid(MsgBadPhone) ==> c.inputType == TelType
  {
    var value := Trim(c.value);
    EmailTestMatchesPattern(value);
    PhoneTestMatchesPattern(value);
    if c.required && value == "" then Invalid(MsgFieldRequired)
    else if c.inputType == EmailType && value != "" && !EmailLooksValid(value) then Invalid(MsgBadEmail)
    else if c.inputType == TelType && value != "" && !PhoneLooksValid(value) then Invalid(MsgBadPhone)
    else Valid
  }

  /** Matched by `input[required], textarea[required], select[required]`. */
  predicate CheckedByForm(c: Control) {
    c.required && c.tag != OtherTag
  }

  /** Matched by `input[type="checkbox"][required]`. */
  predicate ConsentBox(c: Control) {
    c.required && c.tag == InputTag && c.inputType == CheckboxType
  }

  /** `c` does not make `validateForm` fail through `validateField`. */
  predicate FieldPasses(c: Control) {
    CheckedByForm(c) ==> ValidateField(c).Valid?
  }

  /** `c` does not make `validateForm` fail through an unticked consent box. */
  predicate ConsentGiven(c: Control) {
    ConsentBox(c) ==> c.checked
  }

  /** The first pass of `validateForm`: `validateField` on every required
      control, none skipped after a failure. */
  method ValidateRequiredControls(form: seq<Control>) returns (allValid: bool)
    ensures allValid <==> forall i :: 0 <= i < |form| ==> FieldPasses(form[i])
  {
    allValid := true;
    var i := 0;
    while i < |form|
      invariant 0 <= i <= |form|
      invariant allValid <==> forall j :: 0 <= j < i ==> FieldPasses(form[j])
    {
      if !FieldPasses(form[i]) {
        allValid := false;
      }
      i := i + 1;
    }
  }

  /** The second pass of `validateForm`: every required checkbox must be ticked. */
  method ConsentBoxesTicked(form: seq<Control>) returns (allTicked: bool)
    ensures allTicked <==> forall i :: 0 <= i < |form| ==> ConsentGiven(form[i])
  {
    allTicked := true;
    var i := 0;
    while i < |form|
      invariant 0 <= i <= |form|
      invariant allTicked <==> forall j :: 0 <= j < i ==> ConsentGiven(form[j])
    {
      if ConsentBox(form[i]) && !form[i].checked {
        allTicked := false;
      }
      i := i + 1;
    }
  }

  /** `validateForm(form)`: both passes run, and the form may be submitted only
      when neither found a problem. */
  method ValidateForm(form: seq<Control>) returns (isValid: bool)
    ensures isValid <==>
              && (forall i :: 0 <= i < |form| && CheckedByForm(form[i]) ==> ValidateField(form[i]).Valid?)
              && (forall i :: 0 <= i < |form| && ConsentBox(form[i]) ==> form[i].checked)
  {
    var fieldsValid := ValidateRequiredControls(form);
    var consentGiven := ConsentBoxesTicked(form);
    isValid := fieldsValid && consentGiven;
  }
}

=== FILE: dispatch.dfy ===
/** The email dispatcher `send_email(subject, body, to_email)`: a credential
    guard in front of one authenticated SMTP exchange, every failure reported
    as `False`. The relay itself is an oracle saying which command raises. */
module Dispatch {
  import opened Base
  import opened PyValues
  import PyInt
  import opened Message

  /** The process environment the handlers read; `None` is an unset variable. */
  datatype Config = Config(
    mailServer: Option<string>,        // MAIL_SERVER
    mailPort: Option<string>,          // MAIL_PORT
    mailUsername: Option<string>,      // MAIL_USERNAME
    mailPassword: Option<string>,      // MAIL_PASSWORD
    mailDefaultSender: Option<string>  // MAIL_DEFAULT_SENDER
  )

  const DefaultServer: string := "smtp.gmail.com"
  const DefaultPort: int := 587

  /** One step of the SMTP exchange, with what it carries. */
  datatype SmtpCommand =
    | Connect(host: string, port: int)     // smtplib.SMTP(server, port)
    | StartTls                             // server.starttls()
    | Login(user: string, password: string)
    | SendMessage(sender: string, to: Option<string>, subject: string, body: Body)
    | Quit

  /** The relay's behaviour: `raises(c)` holds when command `c` throws. */
  type Relay = SmtpCommand -> bool

  /** What one call reports (`sent`) and which commands it issued, in order. */
  datatype DispatchReport = DispatchReport(sent: bool, session: seq<SmtpCommand>)

  /** `os.environ.get('MAIL_SERVER', 'smtp.gmail.com')`. */
  function RelayHost(cfg: Config): string {
    cfg.mailServer.GetOr(DefaultServer)
  }

  /** `int(os.environ.get('MAIL_PORT', 587))`; `None` where `int()` raises. */
  function RelayPort(cfg: Config): Option<int> {
    match cfg.mailPort
    case None => Some(DefaultPort)
    case Some(text) => PyInt.ParseInt(text)
  }

  /** `all([username, password])`. */
  predicate CredentialsSet(cfg: Config) {
    Truthy(cfg.mailUsername) && Truthy(cfg.mailPassword)
  }

  /** The exchange a configured dispatcher attempts: connect, upgrade, log in,
      send with `From` = the username, quit. */
  function Exchange(host: string, port: int, user: string, password: string,
                    to: Option<string>, subject: string, body: Body): seq<SmtpCommand>
  {
    [Connect(host, port), StartTls, Login(user, password), SendMessage(user, to, subject, body), Quit]
  }

  /** The exchange `send_email` attempts under configuration `cfg`. */
  function ConfiguredExchange(cfg: Config, to: Option<string>, subject: string, body: Body): seq<SmtpCommand>
    requires CredentialsSet(cfg) && RelayPort(cfg).Some?
  {
    Exchange(RelayHost(cfg), RelayPort(cfg).value, cfg.mailUsername.value, cfg.mailPassword.value, to, subject, body)
  }

  /** Issues `cmds` in order until one raises; the first exception ends the
      exchange and is reported as a failure. */
  function Run(cmds: seq<SmtpCommand>, raises: Relay): (r: DispatchReport)
    ensures r.sent <==> forall k :: 0 <= k < |cmds| ==> !raises(cmds[k])
    ensures |r.session| <= |cmds| && r.session == cmds[..|r.session|]
    ensures r.sent ==> r.session == cmds
    ensures !r.sent ==> r.session != [] && raises(r.session[|r.session| - 1])
    ensures forall k :: 0 <= k < |r.session| - 1 ==> !raises(r.session[k])
    decreases |cmds|
  {
    if cmds == [] then DispatchReport(true, [])
    else if raises(cmds[0]) then DispatchReport(false, [cmds[0]])
    else
      var rest := Run(cmds[1..], raises);
      DispatchReport(rest.sent, [cmds[0]] + rest.session)
  }

  /** `send_email(subject, body, to_email)`. */
  function SendEmail(cfg: Config, subject: string, body: Body, to: Option<string>, raises: Relay): (r: DispatchReport)
    // the guard: without both credentials nothing is sent and no connection is opened
    ensures !CredentialsSet(cfg) ==> r == DispatchReport(false, [])
    // a MAIL_PORT `int()` rejects raises inside the `try`: also no connection
    ensures RelayPort(cfg).None? ==> r == DispatchReport(false, [])
    // any session that starts is the configured exchange, cut at the first exception
    ensures r.session != [] ==>
              && CredentialsSet(cfg) && RelayPort(cfg).Some?
              && r.session[0] == Connect(RelayHost(cfg), RelayPort(cfg).value)
              && |r.session| <= |ConfiguredExchange(cfg, to, subject, body)|
              && r.session == ConfiguredExchange(cfg, to, subject, body)[..|r.session|]
    // success exactly when configured and no step of the exchange raised
    ensures r.sent <==>
              && CredentialsSet(cfg) && RelayPort(cfg).Some?
              && forall c :: c in ConfiguredExchange(cfg, to, subject, body) ==> !raises(c)
    // past the guard a connection is always attempted, and a failed session ends
    // at the command that raised
    ensures CredentialsSet(cfg) && RelayPort(cfg).Some? ==>
              r.session != [] && (!r.sent ==> raises(r.session[|r.session| - 1]))
    // nothing is issued after the first command that raises
    ensures forall k :: 0 <= k < |r.session| - 1 ==> !raises(r.session[k])
    ensures r.sent ==> SendMessage(cfg.mailUsername.value, to, subject, body) in r.session
    ensures r.sent ==> r.session[|r.session| - 1] == Quit
  {
    match RelayPort(cfg)
    case None => DispatchReport(false, [])
    case Some(port) =>
      if !CredentialsSet(cfg) then DispatchReport(false, [])
      else Run(ConfiguredExchange(cfg, to, subject, body), raises)
  }
}

=== FILE: message.dfy ===
/** The plain-text notification mail, as an ordered sequence of labelled lines. */
module Message {
  import opened Base

  /** One line of a notification body. The exact indentation the handlers'
      triple-quoted f-strings produce is not modelled. */
  datatype BodyLine =
    | Text(text: string)                  // a heading or a fixed sentence
    | Field(caption: string, value: string) // `Caption: value`
    | Blank

  type Body = seq<BodyLine>

  /** The value on the first `caption:` line of `body`, if there is one. */
  function FieldValue(body: Body, caption: string): Option<string>
    decreases |body|
  {
    if body == [] then None
    else if body[0].Field? && body[0].caption == caption then Some(body[0].value)
    else FieldValue(body[1..], caption)
  }

  /** The captions of `body`, in order. */
  function Captions(body: Body): seq<string>
    decreases |body|
  {
    if body == [] then []
    else if body[0].Field? then [body[0].caption] + Captions(body[1..])
    else Captions(body[1..])
  }

  /** Looking a caption up in two concatenated sections finds it in the first
      section when it is there, and otherwise in the second. */
  lemma {:induction false} FieldValueAppend(a: Body, b: Body, caption: string)
    ensures FieldValue(a + b, caption) == if FieldValue(a, caption).Some? then FieldValue(a, caption) else FieldValue(b, caption)
    decreases |a|
  {
    if a != [] {
      assert (a + b)[1..] == a[1..] + b;
      FieldValueAppend(a[1..], b, caption);
    } else {
      assert a + b == b;
    }
  }

  /** The captions of two concatenated sections are the first section's followed by the second's. */
  lemma {:induction false} CaptionsAppend(a: Body, b: Body)
    ensures Captions(a + b) == Captions(a) + Captions(b)
    decreases |a|
  {
    if a != [] {
      assert (a + b)[1..] == a[1..] + b;
      CaptionsAppend(a[1..], b);
    } else {
      assert a + b == b;
    }
  }

  /** A caption occurs in the captions exactly when a lookup of it succeeds. */
  lemma {:induction false} FieldValueFound(body: Body, caption: string)
    ensures FieldValue(body, caption).Some? <==> caption in Captions(body)
    decreases |body|
  {
    if body != [] {
      FieldValueFound(body[1..], caption);
    }
  }

  /** One step of a lookup from line `i` on. */
  lemma FieldValueStep(body: Body, i: nat, caption: string)
    requires i < |body|
    ensures FieldValue(body[i..], caption)
              == if body[i].Field? && body[i].caption == caption then Some(body[i].value)
                 else FieldValue(body[i + 1..], caption)
  {
    assert body[i..][1..] == body[i + 1..];
  }

  /** One step of listing the captions from line `i` on. */
  lemma CaptionsStep(body: Body, i: nat)
    requires i < |body|
    ensures Captions(body[i..]) == (if body[i].Field? then [body[i].caption] else []) + Captions(body[i + 1..])
  {
    assert body[i..][1..] == body[i + 1..];
  }
}

=== FILE: phone_format.dfy ===
/** `formatPhoneNumber`: the as-you-type formatting of telephone inputs. */
module PhoneFormat {
  import opened Base
  import opened ClientValidation

  /** `value.replace(/\D/g, '')`: the ASCII digits of `s`, in order. */
  function Digits(s: string): (d: string)
    ensures |d| <= |s|
    ensures forall k :: 0 <= k < |d| ==> IsAsciiDigit(d[k])
    // every digit is kept, as often as it occurs
    ensures forall c :: '0' <= c <= '9' ==> multiset(d)[c] == multiset(s)[c]
    decreases |s|
  {
    assert s != [] ==> s == [s[0]] + s[1..];
    if s == [] then []
    else if IsAsciiDigit(s[0]) then [s[0]] + Digits(s[1..])
    else Digits(s[1..])
  }

  /** The formatting characters the layout adds. */
  predicate Punctuation(c: char) {
    c == '(' || c == ')' || c == ' ' || c == '-'
  }

  /** `digits.replace(/(\d{3})(\d{3})(\d{4})/, '($1) $2-$3')` on a digit-only
      string: the first ten digits are laid out as `(ddd) ddd-dddd` and any
      further digits follow unchanged; fewer than ten are left as they are. */
  function Layout(d: string): string {
    if |d| < 10 then d
    else "(" + d[..3] + ") " + d[3..6] + "-" + d[6..10] + d[10..]
  }

  /** `formatPhoneNumber(input)`: the new value of the input. */
  function FormatPhoneNumber(s: string): (r: string)
    // the output holds exactly the input's digits, in order ...
    ensures Digits(r) == Digits(s)
    // ... and nothing else but the layout's punctuation
    ensures forall k :: 0 <= k < |r| ==> IsAsciiDigit(r[k]) || Punctuation(r[k])
    ensures r != [] ==> IsAsciiDigit(r[|r| - 1])
    ensures |Digits(s)| < 10 ==> r == Digits(s)
    ensures |Digits(s)| >= 10 ==>
              && |r| == |Digits(s)| + 4
              && r[0] == '(' && r[4] == ')' && r[5] == ' ' && r[9] == '-'
  {
    var d := Digits(s);
    LayoutKeepsDigits(d);
    Layout(d)
  }

  /** Laying out a digit string keeps its digits and adds only punctuation. */
  lemma LayoutKeepsDigits(d: string)
    requires forall k :: 0 <= k < |d| ==> IsAsciiDigit(d[k])
    ensures Digits(Layout(d)) == d
    ensures forall k :: 0 <= k < |Layout(d)| ==> IsAsciiDigit(Layout(d)[k]) || Punctuation(Layout(d)[k])
    ensures d != [] ==> Layout(d)[|Layout(d)| - 1] == d[|d| - 1]
  {
    if |d| >= 10 {
      FullLayoutDigits(d);
      FullLayoutCharacters(d);
    } else {
      DigitsOfDigits(d);
    }
  }

  lemma FullLayoutDigits(d: string)
    requires |d| >= 10
    requires forall k :: 0 <= k < |d| ==> IsAsciiDigit(d[k])
    ensures Digits(Layout(d)) == d
  {
    var a, b, c, e := d[..3], d[3..6], d[6..10], d[10..];
    assert Digits(Layout(d)) == a + b + c + e by {
      LayoutPartsDigits(a, b, c, e);
      DigitsOfDigits(a);
      DigitsOfDigits(b);
      DigitsOfDigits(c);
      DigitsOfDigits(e);
    }
    assert d == a + b + c + e;
  }

  /** The punctuation of the layout contributes no digits. */
  lemma LayoutPartsDigits(a: string, b: string, c: string, e: string)
    ensures Digits("(" + a + ") " + b + "-" + c + e) == Digits(a) + Digits(b) + Digits(c) + Digits(e)
  {
    var p1 := "(" + a;
    var p2 := p1 + ") ";
    var p3 := p2 + b;
    var p4 := p3 + "-";
    var p5 := p4 + c;
    assert Digits("(") == [] && Digits(") ") == [] && Digits("-") == [];
    assert Digits(p1) == Digits(a) by { DigitsAppend("(", a); }
    assert Digits(p2) == Digits(a) by { DigitsAppend(p1, ") "); }
    assert Digits(p3) == Digits(a) + Digits(b) by { DigitsAppend(p2, b); }
    assert Digits(p4) == Digits(a) + Digits(b) by { DigitsAppend(p3, "-"); }
    assert Digits(p5) == Digits(a) + Digits(b) + Digits(c) by { DigitsAppend(p4, c); }
    DigitsAppend(p5, e);
  }

  lemma FullLayoutCharacters(d: string)
    requires |d| >= 10
    requires forall k :: 0 <= k < |d| ==> IsAsciiDigit(d[k])
    ensures forall k :: 0 <= k < |Layout(d)| ==> IsAsciiDigit(Layout(d)[k]) || Punctuation(Layout(d)[k])
    ensures Layout(d)[|Layout(d)| - 1] == d[|d| - 1]
  {
    var l := Layout(d);
    assert |l| == |d| + 4;
    forall k | 0 <= k < |l| ensures IsAsciiDigit(l[k]) || Punctuation(l[k]) {
      if k >= 14 {
        assert l[k] == d[k - 4];
      } else if 10 <= k {
        assert l[k] == d[k - 4];
      } else if 6 <= k < 9 {
        assert l[k] == d[k - 3];
      } else if 1 <= k < 4 {
        assert l[k] == d[k - 1];
      }
    }
    assert l[|l| - 1] == d[|d| - 1];
  }

  lemma {:induction false} DigitsAppend(a: string, b: string)
    ensures Digits(a + b) == Digits(a) + Digits(b)
    decreases |a|
  {
    if a == [] {
      assert a + b == b;
    } else {
      assert (a + b)[1..] == a[1..] + b;
      DigitsAppend(a[1..], b);
    }
  }

  /** A digit-only string is its own digits. */
  lemma {:induction false} DigitsOfDigits(d: string)
    requires forall k :: 0 <= k < |d| ==> IsAsciiDigit(d[k])
    ensures Digits(d) == d
    decreases |d|
  {
    if d != [] {
      DigitsOfDigits(d[1..]);
    }
  }

  /** Reformatting an already formatted value changes nothing. */
  lemma FormatIdempotent(s: string)
    ensures FormatPhoneNumber(FormatPhoneNumber(s)) == FormatPhoneNumber(s)
  {
  }

  /** Two values format alike exactly when they hold the same digits. */
  lemma FormatDeterminedByDigits(s: string, t: string)
    ensures FormatPhoneNumber(s) == FormatPhoneNumber(t) <==> Digits(s) == Digits(t)
  {
  }

  /** A value formatted from ten or more digits passes the phone check of
      `validateField`; one formatted from one to nine digits fails it. */
  lemma FormattedPhoneValidates(s: string, required: bool)
    ensures var c := Control(InputTag, TelType, FormatPhoneNumber(s), required, false);
            && (|Digits(s)| >= 10 ==> ValidateField(c).Valid?)
            && (0 < |Digits(s)| < 10 ==> ValidateField(c) == Invalid(MsgBadPhone))
  {
    if |Digits(s)| >= 10 {
      LongFormattedPhoneValid(s, required);
    } else if 0 < |Digits(s)| {
      ShortFormattedPhoneInvalid(s, required);
    }
  }

  lemma LongFormattedPhoneValid(s: string, required: bool)
    requires |Digits(s)| >= 10
    ensures ValidateField(Control(InputTag, TelType, FormatPhoneNumber(s), required, false)).Valid?
  {
    var r := FormatPhoneNumber(s);
    assert r[0] == '(';
    assert PhoneBody(r);
    TelVerdict(r, required);
  }

  lemma ShortFormattedPhoneInvalid(s: string, required: bool)
    requires 0 < |Digits(s)| < 10
    ensures ValidateField(Control(InputTag, TelType, FormatPhoneNumber(s), required, false)) == Invalid(MsgBadPhone)
  {
    ShortDigitsInvalid(Digits(s), required);
  }

  lemma ShortDigitsInvalid(d: string, required: bool)
    requires 0 < |d| < 10
    requires forall k :: 0 <= k < |d| ==> IsAsciiDigit(d[k])
    ensures ValidateField(Control(InputTag, TelType, d, required, false)) == Invalid(MsgBadPhone)
  {
    assert IsAsciiDigit(d[0]) && IsAsciiDigit(d[|d| - 1]);
    TelVerdict(d, required);
  }

  /** The verdict on a tel field whose value has no surrounding space and no
      leading `+`: valid exactly when the whole value is a phone body. */
  lemma TelVerdict(r: string, required: bool)
    requires r != [] && !IsJsSpace(r[0]) && !IsJsSpace(r[|r| - 1]) && r[0] != '+'
    ensures var c := Control(InputTag, TelType, r, required, false);
            && (PhoneBody(r) ==> ValidateField(c).Valid?)
            && (!PhoneBody(r) ==> ValidateField(c) == Invalid(MsgBadPhone))
  {
    TrimOfTrimmed(r);
    assert !AllSpace(r) by { assert !IsJsSpace(r[|r| - 1]); }
    assert MatchesPhonePattern(r) <==> PhoneBody(r);
  }

  lemma TrimOfTrimmed(r: string)
    requires r != [] && !IsJsSpace(r[0]) && !IsJsSpace(r[|r| - 1])
    ensures Trim(r) == r
  {
  }
}

=== FILE: py_int.dfy ===
/** Python's `int(text)` for base-10 text, used on the `MAIL_PORT` setting,
    together with the decimal rendering of a natural number. */
module PyInt {
  import opened Base

  /** The characters `int()` strips from both ends of its text: those
      `str.isspace()` accepts, except the separators U+001C to U+001F, which
      `int()` refuses. */
  predicate IsPySpace(c: char) {
    || c == ' ' || c == '\t' || c == '\n' || c == '\r'
    || c == '\U{B}' || c == '\U{C}'
    || c == '\U{85}' || c == '\U{A0}' || c == '\U{1680}'
    || ('\U{2000}' <= c <= '\U{200A}')
    || c == '\U{2028}' || c == '\U{2029}' || c == '\U{202F}' || c == '\U{205F}' || c == '\U{3000}'
  }

  function DigitOf(c: char): nat
    requires IsAsciiDigit(c)
  {
    (c as int) - ('0' as int)
  }

  /** Drops leading and trailing Python whitespace. */
  function Strip(s: string): (t: string)
    ensures |t| <= |s|
    ensures t != [] ==> !IsPySpace(t[0]) && !IsPySpace(t[|t| - 1])
    ensures forall k :: 0 <= k < |s| && !IsPySpace(s[k]) ==> t != []
    ensures (forall k :: 0 <= k < |s| ==> IsPySpace(s[k])) ==> t == []
    decreases |s|
  {
    if s == [] then s
    else if IsPySpace(s[0]) then Strip(s[1..])
    else if IsPySpace(s[|s| - 1]) then Strip(s[..|s| - 1])
    else s
  }

  /** A base-10 digit run in which single underscores may separate digits,
      as `int()` accepts it: `1_000` but not `_1`, `1_` or `1__0`. */
  predicate Grouped(d: string) {
    && |d| > 0
    && IsAsciiDigit(d[0]) && IsAsciiDigit(d[|d| - 1])
    && forall k :: 0 <= k < |d| ==> IsAsciiDigit(d[k]) || (d[k] == '_' && 0 < k < |d| - 1 && IsAsciiDigit(d[k + 1]))
  }

  /** The number a digit run denotes, underscores ignored. */
  function GroupedValue(d: string): nat
    decreases |d|
  {
    if d == [] then 0
    else if IsAsciiDigit(d[|d| - 1]) then GroupedValue(d[..|d| - 1]) * 10 + DigitOf(d[|d| - 1])
    else GroupedValue(d[..|d| - 1])
  }

  /** `int(s)`: `Some(n)` when Python returns `n`, `None` when it raises `ValueError`. */
  function ParseInt(s: string): (r: Option<int>)
    // blank text raises
    ensures (forall k :: 0 <= k < |s| ==> IsPySpace(s[k])) ==> r.None?
    // text is accepted exactly when, once stripped, it is a digit run with at most one sign in front
    ensures var t := Strip(s);
            r.Some? <==> Grouped(t) || (|t| > 0 && (t[0] == '+' || t[0] == '-') && Grouped(t[1..]))
    // only a minus sign makes the result negative
    ensures r.Some? && r.value < 0 ==> |Strip(s)| > 0 && Strip(s)[0] == '-'
    // an unsigned digit run reads as the number it denotes, and a signed one as
    // that number with the sign applied
    ensures Grouped(Strip(s)) ==> r == Some(GroupedValue(Strip(s)))
    ensures var t := Strip(s);
            |t| > 0 && (t[0] == '+' || t[0] == '-') && Grouped(t[1..]) ==>
              r == Some(if t[0] == '-' then -(GroupedValue(t[1..]) as int) else GroupedValue(t[1..]))
  {
    var t := Strip(s);
    if |t| > 0 && (t[0] == '+' || t[0] == '-') then
      var d := t[1..];
      if Grouped(d) then
        var n: int := GroupedValue(d);
        Some(if t[0] == '-' then -n else n)
      else None
    else if Grouped(t) then Some(GroupedValue(t))
    else None
  }

  /** The shortest decimal rendering of `n`, as `str(n)` gives it. */
  function DecimalString(n: nat): (s: string)
    ensures |s| > 0
    ensures forall k :: 0 <= k < |s| ==> IsAsciiDigit(s[k])
    decreases n
  {
    if n < 10 then [('0' as int + n) as char]
    else DecimalString(n / 10) + [('0' as int + n % 10) as char]
  }

  lemma {:induction false} GroupedValueOfDecimal(n: nat)
    ensures GroupedValue(DecimalString(n)) == n
    decreases n
  {
    if n >= 10 {
      var s := DecimalString(n);
      assert s[..|s| - 1] == DecimalString(n / 10);
      GroupedValueOfDecimal(n / 10);
    }
  }

  /** `int(str(n)) == n`: the decimal rendering parses back to the number. */
  lemma DecimalRoundTrip(n: nat)
    ensures ParseInt(DecimalString(n)) == Some(n)
  {
    var s := DecimalString(n);
    assert IsAsciiDigit(s[0]) && IsAsciiDigit(s[|s| - 1]);
    assert Strip(s) == s;
    assert Grouped(s);
    GroupedValueOfDecimal(n);
  }

  /** `int('-' + str(n)) == -n` and `int('+' + str(n)) == n`. */
  lemma SignedDecimalRoundTrip(n: nat)
    ensures ParseInt(['-'] + DecimalString(n)) == Some(-(n as int))
    ensures ParseInt(['+'] + DecimalString(n)) == Some(n)
  {
    assert ParseInt(['-'] + DecimalString(n)) == Some(-(n as int)) by {
      DecimalGrouped(n);
      SignedRun('-', DecimalString(n));
    }
    assert ParseInt(['+'] + DecimalString(n)) == Some(n) by {
      DecimalGrouped(n);
      SignedRun('+', DecimalString(n));
    }
  }

  /** The decimal rendering is a digit run denoting the number. */
  lemma DecimalGrouped(n: nat)
    ensures Grouped(DecimalString(n)) && GroupedValue(DecimalString(n)) == n
  {
    var d := DecimalString(n);
    assert IsAsciiDigit(d[0]) && IsAsciiDigit(d[|d| - 1]);
    GroupedValueOfDecimal(n);
  }

  /** A sign in front of a digit run with no surrounding space. */
  lemma SignedRun(sign: char, d: string)
    requires sign == '+' || sign == '-'
    requires Grouped(d)
    ensures ParseInt([sign] + d) == Some(if sign == '-' then -(GroupedValue(d) as int) else GroupedValue(d))
  {
    var t := [sign] + d;
    assert !IsPySpace(t[0]) && !IsPySpace(t[|t| - 1]) by {
      assert t[|t| - 1] == d[|d| - 1];
    }
    assert Strip(t) == t;
    assert t[1..] == d;
    assert !Grouped(t);
  }

  /** `int()` strips ordinary and Unicode spaces around a port but refuses an
      information separator: `int(' 587\u3000')` is 587, `int('\x1c587')` raises. */
  lemma PortPadding()
    ensures ParseInt(" 587\U{3000}") == Some(587)
    ensures ParseInt("\U{1C}587") == None
  {
    var padded, separated := " 587\U{3000}", "\U{1C}587";
    assert Strip(padded) == Strip(padded[1..]) == Strip(padded[1..][..3]);
    assert padded[1..][..3] == "587" && Strip("587") == "587";
    assert GroupedValue("587") == 587 by {
      assert "587"[..2] == "58" && "58"[..1] == "5" && "5"[..0] == "";
    }
    assert Strip(separated) == separated;
    assert !Grouped(separated) && separated[0] != '+' && separated[0] != '-';
  }
}

=== FILE: py_values.dfy ===
/** The handful of Python value semantics the request handlers lean on:
    `request.form.get(key)`, truthiness of an optional string, `x or 'default'`,
    and how an f-string renders a value that may be `None`. */
module PyValues {
  import opened Base

  /** The posted form: field name to submitted text. Flask's multi-valued
      form is reduced to its first value per key, which is what `.get` returns. */
  type FieldMap = map<string, string>

  /** `request.form.get(key)`: the submitted text, or `None` when the field was not posted. */
  function Get(form: FieldMap, key: string): Option<string> {
    if key in form then Some(form[key]) else None
  }

  /** Python truthiness of a value that is `None` or a `str`: only a non-empty string is true. */
  predicate Truthy(v: Option<string>) {
    v.Some? && v.value != ""
  }

  /** The field `key` was posted with a non-empty value. */
  predicate Filled(form: FieldMap, key: string) {
    Truthy(Get(form, key))
  }

  /** Python's `v or fallback` where `v` is `None` or a `str`. */
  function Or(v: Option<string>, fallback: string): (r: string)
    ensures Truthy(v) ==> r == v.value
    ensures !Truthy(v) ==> r == fallback
    ensures fallback != "" ==> r != ""
  {
    if Truthy(v) then v.value else fallback
  }

  /** How `f"{v}"` renders `v`: a `str` as itself, `None` as the text `None`. */
  function Show(v: Option<string>): string {
    match v
    case Some(s) => s
    case None => "None"
  }
}

=== FILE: submission.dfy ===
/** The `submit_contact` handler: classify a posted form as a contact message or
    an appointment booking, check its required fields in a fixed order, format
    the notification mail, hand it to the dispatcher and render the outcome.
    One model covers both deployments through a `Variant`. */
module Submission {
  import opened Base
  import opened PyValues
  import opened Message
  import opened Dispatch

  /** How much an appointment booking must carry beyond a name and an email. */
  datatype Policy =
    | Strict   // also the condition text, the service type and the consultation type
    | Lenient  // nothing more

  /** Where the notification goes. */
  datatype RecipientRule =
    | OperatorAccount             // MAIL_USERNAME
    | DefaultSenderElseSubmitter  // MAIL_DEFAULT_SENDER when set, else the submitter's own email

  /** One deployment of the handler. `subjectMark` is the text the appointment
      subject starts with. */
  datatype Variant = Variant(policy: Policy, recipientRule: RecipientRule, subjectMark: string)

  /** application.py. Its subject mark is, byte for byte, the hospital emoji's
      UTF-8 encoding read back as Mac Roman: U+F8FF U+00FC U+00E8 U+2022. */
  const Production: Variant := Variant(Strict, OperatorAccount, "\U{F8FF}\U{FC}\U{E8}\U{2022}")

  /** app_simple.py. Its subject mark is the hospital emoji U+1F3E5. */
  const Development: Variant := Variant(Lenient, DefaultSenderElseSubmitter, "\U{1F3E5}")

  datatype Kind = Contact | Appointment

  /** The `service` value that marks an appointment booking. */
  const AppointmentSentinel: string := "appointment-booking"

  /** `is_appointment = service == 'appointment-booking'`. */
  function Classify(form: FieldMap): (k: Kind)
    ensures k == Appointment <==> "service" in form && form["service"] == AppointmentSentinel
  {
    if Get(form, "service") == Some(AppointmentSentinel) then Appointment else Contact
  }

  // ---------------------------------------------------------------------------
  // Validation
  // ---------------------------------------------------------------------------

  /** The two forms a failed submission is sent back to. */
  datatype Page = ContactPage | BookAppointmentPage

  /** The form a submission of `kind` came from. */
  function FormPage(kind: Kind): Page {
    if kind == Appointment then BookAppointmentPage else ContactPage
  }

  const MsgRequired: string := "Please fill in all required fields."
  const MsgCondition: string := "Please describe your condition or symptoms."
  const MsgServiceType: string := "Please select a service type."
  const MsgConsultationType: string := "Please select a consultation type (In-Person or Video)."

  /** A failed check: the form to redisplay and the flashed error. */
  datatype Rejection = Rejection(page: Page, message: string)

  /** A field that must be posted non-empty, and the error shown when it is not. */
  datatype Requirement = Requirement(key: string, message: string)

  /** The checks a submission of `kind` undergoes under `policy`, in the order
      the handler makes them. */
  function Requirements(policy: Policy, kind: Kind): seq<Requirement> {
    [Requirement("name", MsgRequired), Requirement("email", MsgRequired)]
    + match (kind, policy)
      case (Contact, _) => [Requirement("message", MsgRequired)]
      case (Appointment, Strict) =>
        [ Requirement("message", MsgCondition)
        , Requirement("service-type", MsgServiceType)
        , Requirement("consultation-type", MsgConsultationType) ]
      case (Appointment, Lenient) => []
  }

  /** Requirement `i` is the first one `form` fails. */
  predicate FirstUnmet(form: FieldMap, reqs: seq<Requirement>, i: int) {
    && 0 <= i < |reqs|
    && !Filled(form, reqs[i].key)
    && forall j :: 0 <= j < i ==> Filled(form, reqs[j].key)
  }

  /** The validation half of `submit_contact`: `None` when the submission may
      proceed, otherwise the redirect and message for the first failed check. */
  function Check(policy: Policy, form: FieldMap): (r: Option<Rejection>)
    ensures r.None? <==>
              forall i :: 0 <= i < |Requirements(policy, Classify(form))| ==>
                Filled(form, Requirements(policy, Classify(form))[i].key)
    ensures r.Some? ==> r.value.page == FormPage(Classify(form))
    ensures r.Some? ==>
              exists i :: FirstUnmet(form, Requirements(policy, Classify(form)), i)
                          && r.value.message == Requirements(policy, Classify(form))[i].message
  {
    var kind := Classify(form);
    var reqs := Requirements(policy, kind);
    if !(Filled(form, "name") && Filled(form, "email")) then
      assert FirstUnmet(form, reqs, if Filled(form, "name") then 1 else 0);
      Some(Rejection(FormPage(kind), MsgRequired))
    else if kind == Appointment then
      if policy == Lenient then None
      else if !Filled(form, "message") then
        assert FirstUnmet(form, reqs, 2);
        Some(Rejection(BookAppointmentPage, MsgCondition))
      else if !Filled(form, "service-type") then
        assert FirstUnmet(form, reqs, 3);
        Some(Rejection(BookAppointmentPage, MsgServiceType))
      else if !Filled(form, "consultation-type") then
        assert FirstUnmet(form, reqs, 4);
        Some(Rejection(BookAppointmentPage, MsgConsultationType))
      else None
    else if !Filled(form, "message") then
      assert FirstUnmet(form, reqs, 2);
      Some(Rejection(ContactPage, MsgRequired))
    else None
  }

  // ---------------------------------------------------------------------------
  // Formatting
  // ---------------------------------------------------------------------------

  const NotSpecified: string := "Not specified"
  const Flexible: string := "Flexible"
  const Routine: string := "Routine"

  /** `'Yes' if request.form.get('first-time') else 'No'`. */
  function FirstTime(form: FieldMap): string {
    if Filled(form, "first-time") then "Yes" else "No"
  }

  function AppointmentOpening(): Body {
    [Blank, Text("NEW APPOINTMENT BOOKING:"), Blank]
  }

  function PersonalSection(form: FieldMap): Body {
    [ Text("PERSONAL INFORMATION:")
    , Field("Name", Show(Get(form, "name")))
    , Field("Email", Show(Get(form, "email")))
    , Field("Phone", Show(Get(form, "phone")))
    , Field("Age", Or(Get(form, "age"), NotSpecified))
    , Blank ]
  }

  function DetailsSection(form: FieldMap): Body {
    [ Text("APPOINTMENT DETAILS:")
    , Field("Service Type", Show(Get(form, "service-type")))
    , Field("Consultation Type", Show(Get(form, "consultation-type")))
    , Field("Preferred Date", Or(Get(form, "preferred-date"), Flexible))
    , Field("Preferred Time", Or(Get(form, "preferred-time"), Flexible))
    , Field("Urgency", Or(Get(form, "urgency"), Routine))
    , Blank ]
  }

  function MedicalSection(form: FieldMap): Body {
    [ Text("MEDICAL INFORMATION:")
    , Field("Primary Condition", Show(Get(form, "message")))
    , Field("Pain Level (1-10)", Or(Get(form, "pain-level"), NotSpecified))
    , Field("Duration", Or(Get(form, "duration"), NotSpecified))
    , Field("First time seeking physiotherapy", FirstTime(form))
    , Blank ]
  }

  function AppointmentClosing(submittedAt: string): Body {
    [ Field("Submitted at", submittedAt)
    , Blank
    , Text("==========================================")
    , Text("Please contact the patient within 24 hours to confirm the appointment.") ]
  }

  /** The appointment notification, `submittedAt` being `now()` as `%Y-%m-%d %H:%M:%S`. */
  function AppointmentBody(form: FieldMap, submittedAt: string): (b: Body)
    // the operator can tell who booked and how to reach them
    ensures FieldValue(b, "Name") == Some(Show(Get(form, "name")))
    ensures FieldValue(b, "Email") == Some(Show(Get(form, "email")))
  {
    var o, p, d, m, c := AppointmentOpening(), PersonalSection(form), DetailsSection(form),
                         MedicalSection(form), AppointmentClosing(submittedAt);
    assert FieldValue(o, "Name") == None && FieldValue(o, "Email") == None by {
      assert o[1..][1..][1..] == [];
    }
    assert FieldValue(p, "Name") == Some(Show(Get(form, "name"))) by {
      assert p[1..][0] == Field("Name", Show(Get(form, "name")));
    }
    assert FieldValue(p, "Email") == Some(Show(Get(form, "email"))) by {
      assert FieldValue(p, "Email") == FieldValue(p[1..], "Email") == FieldValue(p[1..][1..], "Email");
      assert p[1..][1..][0] == Field("Email", Show(Get(form, "email")));
    }
    FieldValueAppend(o, p, "Name"); FieldValueAppend(o + p, d, "Name");
    FieldValueAppend(o + p + d, m, "Name"); FieldValueAppend(o + p + d + m, c, "Name");
    FieldValueAppend(o, p, "Email"); FieldValueAppend(o + p, d, "Email");
    FieldValueAppend(o + p + d, m, "Email"); FieldValueAppend(o + p + d + m, c, "Email");
    o + p + d + m + c
  }

  function ContactOpening(): Body {
    [Blank, Text("New contact form submission:"), Blank]
  }

  function ContactDetails(form: FieldMap): Body {
    [ Field("Name", Show(Get(form, "name")))
    , Field("Email", Show(Get(form, "email")))
    , Field("Phone", Show(Get(form, "phone")))
    , Field("Service Interest", Show(Get(form, "service")))
    , Field("Message", Show(Get(form, "message"))) ]
  }

  function ContactClosing(submittedAt: string): Body {
    [Blank, Field("Submitted at", submittedAt)]
  }

  /** The contact notification. */
  function ContactBody(form: FieldMap, submittedAt: string): (b: Body)
    // the operator can tell who wrote and how to answer them
    ensures FieldValue(b, "Name") == Some(Show(Get(form, "name")))
    ensures FieldValue(b, "Email") == Some(Show(Get(form, "email")))
  {
    var o, d, c := ContactOpening(), ContactDetails(form), ContactClosing(submittedAt);
    assert FieldValue(o, "Name") == None && FieldValue(o, "Email") == None by {
      assert o[1..][1..][1..] == [];
    }
    assert FieldValue(d, "Email") == Some(Show(Get(form, "email"))) by {
      assert d[1..][0] == Field("Email", Show(Get(form, "email")));
    }
    FieldValueAppend(o, d, "Name"); FieldValueAppend(o + d, c, "Name");
    FieldValueAppend(o, d, "Email"); FieldValueAppend(o + d, c, "Email");
    o + d + c
  }

  function NotificationBody(kind: Kind, form: FieldMap, submittedAt: string): Body {
    match kind
    case Appointment => AppointmentBody(form, submittedAt)
    case Contact => ContactBody(form, submittedAt)
  }

  const AppointmentSubjectText: string := " NEW APPOINTMENT BOOKING - "
  const ContactSubjectPrefix: string := "New Contact Form Submission from "

  /** The notification's subject line. */
  function Subject(v: Variant, kind: Kind, form: FieldMap): (s: string)
    // a contact subject is the fixed prefix followed by the posted name
    ensures kind == Contact ==>
              && ContactSubjectPrefix <= s
              && s[|ContactSubjectPrefix|..] == Show(Get(form, "name"))
    // a booking subject opens with the deployment's mark and the booking text, and
    // closes with the consultation type in parentheses
    ensures kind == Appointment ==>
              && v.subjectMark + AppointmentSubjectText <= s
              && var tail := " (" + Show(Get(form, "consultation-type")) + ")";
                 |tail| <= |s| && s[|s| - |tail|..] == tail
    // with the booker's name, exactly, in between
    ensures kind == Appointment ==>
              var head := v.subjectMark + AppointmentSubjectText;
              var tail := " (" + Show(Get(form, "consultation-type")) + ")";
              |head| + |tail| <= |s| && s[|head|..|s| - |tail|] == Show(Get(form, "name"))
  {
    match kind
    case Appointment =>
      var head := v.subjectMark + AppointmentSubjectText;
      var tail := " (" + Show(Get(form, "consultation-type")) + ")";
      ThreeParts(head, Show(Get(form, "name")), tail);
      head + Show(Get(form, "name")) + tail
    case Contact => ContactSubjectPrefix + Show(Get(form, "name"))
  }

  /** The parts of a three-part concatenation can be cut back out of it. */
  lemma ThreeParts(head: string, mid: string, tail: string)
    ensures var s := head + mid + tail;
            && |head| + |tail| <= |s|
            && head <= s
            && s[|head|..|s| - |tail|] == mid
            && s[|s| - |tail|..] == tail
  {
  }

  // ---------------------------------------------------------------------------
  // The handler
  // ---------------------------------------------------------------------------

  /** The recipient address `send_email` is handed. */
  function Recipient(rule: RecipientRule, cfg: Config, form: FieldMap): (to: Option<string>)
    // application.py addresses the operator account, set or not
    ensures rule == OperatorAccount ==> to == cfg.mailUsername
    // app_simple.py prefers the configured default sender, even an empty one ...
    ensures rule == DefaultSenderElseSubmitter && cfg.mailDefaultSender.Some? ==> to == cfg.mailDefaultSender
    // ... and otherwise mails the submitter back, or nobody when no email was posted
    ensures rule == DefaultSenderElseSubmitter && cfg.mailDefaultSender.None? ==>
              (to.Some? <==> "email" in form) && (to.Some? ==> to.value == form["email"])
  {
    match rule
    case OperatorAccount => cfg.mailUsername
    case DefaultSenderElseSubmitter =>
      if cfg.mailDefaultSender.Some? then cfg.mailDefaultSender else Get(form, "email")
  }

  const AppointmentThanks: string :=
    "Your appointment request has been submitted! We'll contact you within 24 hours to confirm."
  const ContactThanks: string := "Thank you for your message! We'll get back to you soon."

  /** What the browser gets: a redirect to a form with an error flashed, or the
      confirmation page with a success flashed. */
  datatype Response =
    | Redirect(page: Page, flash: string)
    | Confirmation(name: string, isAppointment: bool, flash: string)

  /** The mail handed to the dispatcher. */
  datatype Outbound = Outbound(subject: string, body: Body, recipient: Option<string>)

  /** A mail handed to the dispatcher and what the dispatcher reported. */
  datatype Delivery = Delivery(mail: Outbound, report: DispatchReport)

  /** The handler's full effect: the response, and the dispatch it made if any. */
  datatype Handled = Handled(response: Response, delivery: Option<Delivery>)

  /** `submit_contact()` for deployment `v`, with environment `cfg`, posted
      fields `form`, the formatted current time `submittedAt`, and a relay
      whose commands raise where `raises` says. */
  function SubmitContact(v: Variant, cfg: Config, form: FieldMap, submittedAt: string, raises: Relay): (h: Handled)
    // rejected submissions redirect to their own form, with the first failed check's message, and send nothing
    ensures h.response.Redirect? <==> Check(v.policy, form).Some?
    ensures h.response.Redirect? ==>
              && h.response.page == FormPage(Classify(form))
              && h.response.flash == Check(v.policy, form).value.message
              && h.delivery.None?
    // accepted submissions are confirmed with the thanks for their kind, and
    // exactly one mail, the notification for that kind, is handed on
    ensures h.response.Confirmation? ==>
              && h.response.isAppointment == (Classify(form) == Appointment)
              && h.response.name == form["name"]
              && h.response.flash == (if Classify(form) == Appointment then AppointmentThanks else ContactThanks)
              && h.delivery.Some?
              && h.delivery.value.mail.subject == Subject(v, Classify(form), form)
              && h.delivery.value.mail.body == NotificationBody(Classify(form), form, submittedAt)
              && h.delivery.value.mail.recipient == Recipient(v.recipientRule, cfg, form)
              && h.delivery.value.report
                   == SendEmail(cfg, h.delivery.value.mail.subject, h.delivery.value.mail.body,
                                h.delivery.value.mail.recipient, raises)
  {
    match Check(v.policy, form)
    case Some(rejection) => Handled(Redirect(rejection.page, rejection.message), None)
    case None =>
      var kind := Classify(form);
      var mail := Outbound(Subject(v, kind, form), NotificationBody(kind, form, submittedAt),
                           Recipient(v.recipientRule, cfg, form));
      var report := SendEmail(cfg, mail.subject, mail.body, mail.recipient, raises);
      var thanks := if kind == Appointment then AppointmentThanks else ContactThanks;
      Handled(Confirmation(Show(Get(form, "name")), kind == Appointment, thanks), Some(Delivery(mail, report)))
  }
}

=== FILE: submission_properties.dfy ===
/** What the submission handler promises across inputs: the order of its
    checks, how its two policies relate, the shape of the notification, and
    that the user's confirmation never depends on the mail relay. */
module SubmissionProperties {
  import opened Base
  import opened PyValues
  import opened Message
  import opened Dispatch
  import opened Submission

  // ---------------------------------------------------------------------------
  // Validation
  // ---------------------------------------------------------------------------

  /** A missing name or email is reported before anything else, with the generic
      message, redirecting by kind, under either policy. */
  lemma NameAndEmailCheckedFirst(policy: Policy, form: FieldMap)
    requires !Filled(form, "name") || !Filled(form, "email")
    ensures Check(policy, form) == Some(Rejection(FormPage(Classify(form)), MsgRequired))
  {
  }

  /** Every rejection of an appointment booking redirects to the booking form,
      and every rejection of a contact message to the contact form. */
  lemma RedirectFollowsKind(policy: Policy, form: FieldMap)
    requires Check(policy, form).Some?
    ensures (Check(policy, form).value.page == BookAppointmentPage)
              == (Get(form, "service") == Some(AppointmentSentinel))
  {
  }

  /** A strict appointment booking reports only the first of its missing
      condition, service type and consultation type, each with its own message. */
  lemma {:induction false} StrictAppointmentChecksInOrder(form: FieldMap)
    requires Classify(form) == Appointment && Filled(form, "name") && Filled(form, "email")
    ensures !Filled(form, "message") ==>
              Check(Strict, form) == Some(Rejection(BookAppointmentPage, MsgCondition))
    ensures Filled(form, "message") && !Filled(form, "service-type") ==>
              Check(Strict, form) == Some(Rejection(BookAppointmentPage, MsgServiceType))
    ensures Filled(form, "message") && Filled(form, "service-type") && !Filled(form, "consultation-type") ==>
              Check(Strict, form) == Some(Rejection(BookAppointmentPage, MsgConsultationType))
    ensures Check(Strict, form).None? <==>
              Filled(form, "message") && Filled(form, "service-type") && Filled(form, "consultation-type")
  {
    var reqs := Requirements(Strict, Appointment);
    var r := Check(Strict, form);
    if r.Some? {
      var i :| FirstUnmet(form, reqs, i) && r.value.message == reqs[i].message;
      assert i >= 2;
    } else {
      assert Filled(form, reqs[2].key) && Filled(form, reqs[3].key) && Filled(form, reqs[4].key);
    }
  }

  /** A contact message without a message text is sent back to the contact
      form with the generic message, under either policy. */
  lemma ContactNeedsMessage(policy: Policy, form: FieldMap)
    requires Classify(form) == Contact && Filled(form, "name") && Filled(form, "email")
    ensures Check(policy, form).None? <==> Filled(form, "message")
    ensures !Filled(form, "message") ==> Check(policy, form) == Some(Rejection(ContactPage, MsgRequired))
  {
  }

  /** Under the lenient policy a booking with a name and an email always passes. */
  lemma LenientAcceptsNamedAppointments(form: FieldMap)
    requires Classify(form) == Appointment && Filled(form, "name") && Filled(form, "email")
    ensures Check(Lenient, form).None?
  {
  }

  /** The two policies differ only on appointment bookings, and the lenient
      one accepts everything the strict one accepts. */
  lemma {:induction false} LenientWeakensStrict(form: FieldMap)
    ensures Classify(form) == Contact ==> Check(Strict, form) == Check(Lenient, form)
    ensures Check(Strict, form).None? ==> Check(Lenient, form).None?
  {
    var k := Classify(form);
    var strict := Requirements(Strict, k);
    var lenient := Requirements(Lenient, k);
    assert lenient <= strict;
    if Check(Strict, form).None? {
      assert forall i :: 0 <= i < |lenient| ==> lenient[i] == strict[i];
    }
  }

  // ---------------------------------------------------------------------------
  // Formatting
  // ---------------------------------------------------------------------------

  const AppointmentCaptions: seq<string> :=
    [ "Name", "Email", "Phone", "Age"
    , "Service Type", "Consultation Type", "Preferred Date", "Preferred Time", "Urgency"
    , "Primary Condition", "Pain Level (1-10)", "Duration", "First time seeking physiotherapy"
    , "Submitted at" ]

  const ContactCaptions: seq<string> :=
    ["Name", "Email", "Phone", "Service Interest", "Message", "Submitted at"]

  /** Every caption occurs once in each template. */
  lemma CaptionsDistinct()
    ensures forall i, j :: 0 <= i < j < |AppointmentCaptions| ==> AppointmentCaptions[i] != AppointmentCaptions[j]
    ensures forall i, j :: 0 <= i < j < |ContactCaptions| ==> ContactCaptions[i] != ContactCaptions[j]
  {
  }

  // Each template section, unrolled line by line.

  lemma OpeningCaptions()
    ensures Captions(AppointmentOpening()) == []
  {
    var s := AppointmentOpening();
    assert s[3..] == [];
    assert Captions(s[2..]) == [] by { CaptionsStep(s, 2); }
    assert Captions(s[1..]) == [] by { CaptionsStep(s, 1); }
    assert Captions(s[0..]) == [] by { CaptionsStep(s, 0); }
    assert s[0..] == s;
  }

  lemma OpeningLookup(caption: string)
    ensures FieldValue(AppointmentOpening(), caption)
            == None
  {
    var s := AppointmentOpening();
    assert s[3..] == [] && s[0..] == s;
    FieldValueStep(s, 2, caption);
    FieldValueStep(s, 1, caption);
    FieldValueStep(s, 0, caption);
  }

  lemma PersonalCaptions(form: FieldMap)
    ensures Captions(PersonalSection(form)) == ["Name", "Email", "Phone", "Age"]
  {
    var s := PersonalSection(form);
    assert s[6..] == [];
    assert Captions(s[5..]) == [] by { CaptionsStep(s, 5); }
    assert Captions(s[4..]) == ["Age"] by { CaptionsStep(s, 4); }
    assert Captions(s[3..]) == ["Phone", "Age"] by { CaptionsStep(s, 3); }
    assert Captions(s[2..]) == ["Email", "Phone", "Age"] by { CaptionsStep(s, 2); }
    assert Captions(s[1..]) == ["Name", "Email", "Phone", "Age"] by { CaptionsStep(s, 1); }
    assert Captions(s[0..]) == ["Name", "Email", "Phone", "Age"] by { CaptionsStep(s, 0); }
    assert s[0..] == s;
  }

  lemma PersonalLookup(form: FieldMap, caption: string)
    ensures FieldValue(PersonalSection(form), caption)
            == if caption == "Name" then Some(Show(Get(form, "name")))
              else if caption == "Email" then Some(Show(Get(form, "email")))
              else if caption == "Phone" then Some(Show(Get(form, "phone")))
              else if caption == "Age" then Some(Or(Get(form, "age"), NotSpecified))
              else None
  {
    var s := PersonalSection(form);
    assert s[6..] == [] && s[0..] == s;
    FieldValueStep(s, 5, caption);
    FieldValueStep(s, 4, caption);
    FieldValueStep(s, 3, caption);
    FieldValueStep(s, 2, caption);
    FieldValueStep(s, 1, caption);
    FieldValueStep(s, 0, caption);
  }

  lemma DetailsCaptions(form: FieldMap)
    ensures Captions(DetailsSection(form)) == ["Service Type", "Consultation Type", "Preferred Date", "Preferred Time", "Urgency"]
  {
    var s := DetailsSection(form);
    assert s[7..] == [];
    assert Captions(s[6..]) == [] by { CaptionsStep(s, 6); }
    assert Captions(s[5..]) == ["Urgency"] by { CaptionsStep(s, 5); }
    assert Captions(s[4..]) == ["Preferred Time", "Urgency"] by { CaptionsStep(s, 4); }
    assert Captions(s[3..]) == ["Preferred Date", "Preferred Time", "Urgency"] by { CaptionsStep(s, 3); }
    assert Captions(s[2..]) == ["Consultation Type", "Preferred Date", "Preferred Time", "Urgency"] by { CaptionsStep(s, 2); }
    assert Captions(s[1..]) == ["Service Type", "Consultation Type", "Preferred Date", "Preferred Time", "Urgency"] by { CaptionsStep(s, 1); }
    assert Captions(s[0..]) == ["Service Type", "Consultation Type", "Preferred Date", "Preferred Time", "Urgency"] by { CaptionsStep(s, 0); }
    assert s[0..] == s;
  }

  lemma DetailsLookup(form: FieldMap, caption: string)
    ensures FieldValue(DetailsSection(form), caption)
            == if caption == "Service Type" then Some(Show(Get(form, "service-type")))
              else if caption == "Consultation Type" then Some(Show(Get(form, "consultation-type")))
              else if caption == "Preferred Date" then Some(Or(Get(form, "preferred-date"), Flexible))
              else if caption == "Preferred Time" then Some(Or(Get(form, "preferred-time"), Flexible))
              else if caption == "Urgency" then Some(Or(Get(form, "urgency"), Routine))
              else None
  {
    var s := DetailsSection(form);
    assert s[7..] == [] && s[0..] == s;
    FieldValueStep(s, 6, caption);
    FieldValueStep(s, 5, caption);
    FieldValueStep(s, 4, caption);
    FieldValueStep(s, 3, caption);
    FieldValueStep(s, 2, caption);
    FieldValueStep(s, 1, caption);
    FieldValueStep(s, 0, caption);
  }

  lemma MedicalCaptions(form: FieldMap)
    ensures Captions(MedicalSection(form)) == ["Primary Condition", "Pain Level (1-10)", "Duration", "First time seeking physiotherapy"]
  {
    var s := MedicalSection(form);
    assert s[6..] == [];
    assert Captions(s[5..]) == [] by { CaptionsStep(s, 5); }
    assert Captions(s[4..]) == ["First time seeking physiotherapy"] by { CaptionsStep(s, 4); }
    assert Captions(s[3..]) == ["Duration", "First time seeking physiotherapy"] by { CaptionsStep(s, 3); }
    assert Captions(s[2..]) == ["Pain Level (1-10)", "Duration", "First time seeking physiotherapy"] by { CaptionsStep(s, 2); }
    assert Captions(s[1..]) == ["Primary Condition", "Pain Level (1-10)", "Duration", "First time seeking physiotherapy"] by { CaptionsStep(s, 1); }
    assert Captions(s[0..]) == ["Primary Condition", "Pain Level (1-10)", "Duration", "First time seeking physiotherapy"] by { CaptionsStep(s, 0); }
    assert s[0..] == s;
  }

  lemma MedicalLookup(form: FieldMap, caption: string)
    ensures FieldValue(MedicalSection(form), caption)
            == if caption == "Primary Condition" then Some(Show(Get(form, "message")))
              else if caption == "Pain Level (1-10)" then Some(Or(Get(form, "pain-level"), NotSpecified))
              else if caption == "Duration" then Some(Or(Get(form, "duration"), NotSpecified))
              else if caption == "First time seeking physiotherapy" then Some(FirstTime(form))
              else None
  {
    var s := MedicalSection(form);
    assert s[6..] == [] && s[0..] == s;
    FieldValueStep(s, 5, caption);
    FieldValueStep(s, 4, caption);
    FieldValueStep(s, 3, caption);
    FieldValueStep(s, 2, caption);
    FieldValueStep(s, 1, caption);
    FieldValueStep(s, 0, caption);
  }

  lemma ClosingCaptions(submittedAt: string)
    ensures Captions(AppointmentClosing(submittedAt)) == ["Submitted at"]
  {
    var s := AppointmentClosing(submittedAt);
    assert s[4..] == [];
    assert Captions(s[3..]) == [] by { CaptionsStep(s, 3); }
    assert Captions(s[2..]) == [] by { CaptionsStep(s, 2); }
    assert Captions(s[1..]) == [] by { CaptionsStep(s, 1); }
    assert Captions(s[0..]) == ["Submitted at"] by { CaptionsStep(s, 0); }
    assert s[0..] == s;
  }

  lemma ClosingLookup(submittedAt: string, caption: string)
    ensures FieldValue(AppointmentClosing(submittedAt), caption)
            == if caption == "Submitted at" then Some(submittedAt)
              else None
  {
    var s := AppointmentClosing(submittedAt);
    assert s[4..] == [] && s[0..] == s;
    FieldValueStep(s, 3, caption);
    FieldValueStep(s, 2, caption);
    FieldValueStep(s, 1, caption);
    FieldValueStep(s, 0, caption);
  }

  lemma ContactOpeningCaptions()
    ensures Captions(ContactOpening()) == []
  {
    var s := ContactOpening();
    assert s[3..] == [];
    assert Captions(s[2..]) == [] by { CaptionsStep(s, 2); }
    assert Captions(s[1..]) == [] by { CaptionsStep(s, 1); }
    assert Captions(s[0..]) == [] by { CaptionsStep(s, 0); }
    assert s[0..] == s;
  }

  lemma ContactOpeningLookup(caption: string)
    ensures FieldValue(ContactOpening(), caption)
            == None
  {
    var s := ContactOpening();
    assert s[3..] == [] && s[0..] == s;
    FieldValueStep(s, 2, caption);
    FieldValueStep(s, 1, caption);
    FieldValueStep(s, 0, caption);
  }

  lemma ContactDetailsCaptions(form: FieldMap)
    ensures Captions(ContactDetails(form)) == ["Name", "Email", "Phone", "Service Interest", "Message"]
  {
    var s := ContactDetails(form);
    assert s[5..] == [];
    assert Captions(s[4..]) == ["Message"] by { CaptionsStep(s, 4); }
    assert Captions(s[3..]) == ["Service Interest", "Message"] by { CaptionsStep(s, 3); }
    assert Captions(s[2..]) == ["Phone", "Service Interest", "Message"] by { CaptionsStep(s, 2); }
    assert Captions(s[1..]) == ["Email", "Phone", "Service Interest", "Message"] by { CaptionsStep(s, 1); }
    assert Captions(s[0..]) == ["Name", "Email", "Phone", "Service Interest", "Message"] by { CaptionsStep(s, 0); }
    assert s[0..] == s;
  }

  lemma ContactDetailsLookup(form: FieldMap, caption: string)
    ensures FieldValue(ContactDetails(form), caption)
            == if caption == "Name" then Some(Show(Get(form, "name")))
              else if caption == "Email" then Some(Show(Get(form, "email")))
              else if caption == "Phone" then Some(Show(Get(form, "phone")))
              else if caption == "Service Interest" then Some(Show(Get(form, "service")))
              else if caption == "Message" then Some(Show(Get(form, "message")))
              else None
  {
    var s := ContactDetails(form);
    assert s[5..] == [] && s[0..] == s;
    FieldValueStep(s, 4, caption);
    FieldValueStep(s, 3, caption);
    FieldValueStep(s, 2, caption);
    FieldValueStep(s, 1, caption);
    FieldValueStep(s, 0, caption);
  }

  lemma ContactClosingCaptions(submittedAt: string)
    ensures Captions(ContactClosing(submittedAt)) == ["Submitted at"]
  {
    var s := ContactClosing(submittedAt);
    assert s[2..] == [];
    assert Captions(s[1..]) == ["Submitted at"] by { CaptionsStep(s, 1); }
    assert Captions(s[0..]) == ["Submitted at"] by { CaptionsStep(s, 0); }
    assert s[0..] == s;
  }

  lemma ContactClosingLookup(submittedAt: string, caption: string)
    ensures FieldValue(ContactClosing(submittedAt), caption)
            == if caption == "Submitted at" then Some(submittedAt)
              else None
  {
    var s := ContactClosing(submittedAt);
    assert s[2..] == [] && s[0..] == s;
    FieldValueStep(s, 1, caption);
    FieldValueStep(s, 0, caption);
  }

  /** The appointment body lists the same captions in the same order whatever
      was posted and whenever. */
  lemma {:induction false} AppointmentLayout(form: FieldMap, submittedAt: string)
    ensures Captions(AppointmentBody(form, submittedAt)) == AppointmentCaptions
  {
    var o, p, d, m, c := AppointmentOpening(), PersonalSection(form), DetailsSection(form),
                         MedicalSection(form), AppointmentClosing(submittedAt);
    OpeningCaptions(); PersonalCaptions(form); DetailsCaptions(form);
    MedicalCaptions(form); ClosingCaptions(submittedAt);
    CaptionsAppend(o, p);
    CaptionsAppend(o + p, d);
    CaptionsAppend(o + p + d, m);
    CaptionsAppend(o + p + d + m, c);
  }

  /** The contact body lists the same captions in the same order whatever was
      posted and whenever, showing the posted service and message verbatim. */
  lemma ContactLayout(form: FieldMap, submittedAt: string)
    ensures Captions(ContactBody(form, submittedAt)) == ContactCaptions
    ensures FieldValue(ContactBody(form, submittedAt), "Phone") == Some(Show(Get(form, "phone")))
    ensures FieldValue(ContactBody(form, submittedAt), "Service Interest") == Some(Show(Get(form, "service")))
    ensures FieldValue(ContactBody(form, submittedAt), "Message") == Some(Show(Get(form, "message")))
    ensures FieldValue(ContactBody(form, submittedAt), "Submitted at") == Some(submittedAt)
  {
    var o, d, c := ContactOpening(), ContactDetails(form), ContactClosing(submittedAt);
    ContactOpeningCaptions(); ContactDetailsCaptions(form); ContactClosingCaptions(submittedAt);
    CaptionsAppend(o, d);
    CaptionsAppend(o + d, c);
    ContactOpeningLookup("Phone"); ContactDetailsLookup(form, "Phone");
    ContactOpeningLookup("Service Interest"); ContactDetailsLookup(form, "Service Interest");
    ContactOpeningLookup("Message"); ContactDetailsLookup(form, "Message");
    ContactOpeningLookup("Submitted at"); ContactDetailsLookup(form, "Submitted at");
    ContactClosingLookup(submittedAt, "Submitted at");
    FieldValueAppend(o, d, "Phone");
    FieldValueAppend(o + d, c, "Phone");
    FieldValueAppend(o, d, "Service Interest");
    FieldValueAppend(o + d, c, "Service Interest");
    FieldValueAppend(o, d, "Message");
    FieldValueAppend(o + d, c, "Message");
    FieldValueAppend(o, d, "Submitted at");
    FieldValueAppend(o + d, c, "Submitted at");
  }

  /** Every caption of either template can be looked up in the mail, and no
      caption occurs twice, so each lookup finds the one line for it. */
  lemma TemplatesComplete(form: FieldMap, submittedAt: string)
    ensures forall c :: c in AppointmentCaptions ==> FieldValue(AppointmentBody(form, submittedAt), c).Some?
    ensures forall c :: c in ContactCaptions ==> FieldValue(ContactBody(form, submittedAt), c).Some?
    ensures var cs := Captions(AppointmentBody(form, submittedAt));
            forall i, j :: 0 <= i < j < |cs| ==> cs[i] != cs[j]
    ensures var cs := Captions(ContactBody(form, submittedAt));
            forall i, j :: 0 <= i < j < |cs| ==> cs[i] != cs[j]
  {
    AppointmentLayout(form, submittedAt);
    ContactLayout(form, submittedAt);
    CaptionsDistinct();
    forall c | c in AppointmentCaptions ensures FieldValue(AppointmentBody(form, submittedAt), c).Some? {
      FieldValueFound(AppointmentBody(form, submittedAt), c);
    }
    forall c | c in ContactCaptions ensures FieldValue(ContactBody(form, submittedAt), c).Some? {
      FieldValueFound(ContactBody(form, submittedAt), c);
    }
  }

  /** Looks a caption up in the appointment body section by section. */
  lemma {:induction false} AppointmentLookup(form: FieldMap, submittedAt: string, caption: string)
    ensures FieldValue(AppointmentBody(form, submittedAt), caption)
            == if FieldValue(PersonalSection(form), caption).Some? then FieldValue(PersonalSection(form), caption)
               else if FieldValue(DetailsSection(form), caption).Some? then FieldValue(DetailsSection(form), caption)
               else if FieldValue(MedicalSection(form), caption).Some? then FieldValue(MedicalSection(form), caption)
               else FieldValue(AppointmentClosing(submittedAt), caption)
  {
    var o, p, d, m, c := AppointmentOpening(), PersonalSection(form), DetailsSection(form),
                         MedicalSection(form), AppointmentClosing(submittedAt);
    OpeningLookup(caption);
    FieldValueAppend(o, p, caption);
    FieldValueAppend(o + p, d, caption);
    FieldValueAppend(o + p + d, m, caption);
    FieldValueAppend(o + p + d + m, c, caption);
  }

  /** Optional appointment fields that were not posted, or posted empty, read as
      their placeholder; the first-time answer is `Yes` exactly when its box was
      ticked; the posted time stamp is recorded. */
  lemma AppointmentPlaceholders(form: FieldMap, submittedAt: string)
    ensures FieldValue(AppointmentBody(form, submittedAt), "Age") == Some(Or(Get(form, "age"), NotSpecified))
    ensures FieldValue(AppointmentBody(form, submittedAt), "Preferred Date") == Some(Or(Get(form, "preferred-date"), Flexible))
    ensures FieldValue(AppointmentBody(form, submittedAt), "Preferred Time") == Some(Or(Get(form, "preferred-time"), Flexible))
    ensures FieldValue(AppointmentBody(form, submittedAt), "Urgency") == Some(Or(Get(form, "urgency"), Routine))
    ensures FieldValue(AppointmentBody(form, submittedAt), "Pain Level (1-10)") == Some(Or(Get(form, "pain-level"), NotSpecified))
    ensures FieldValue(AppointmentBody(form, submittedAt), "Duration") == Some(Or(Get(form, "duration"), NotSpecified))
    ensures FieldValue(AppointmentBody(form, submittedAt), "First time seeking physiotherapy")
            == Some(if Filled(form, "first-time") then "Yes" else "No")
    ensures FieldValue(AppointmentBody(form, submittedAt), "Submitted at") == Some(submittedAt)
  {
    AppointmentLookup(form, submittedAt, "Age");
    PersonalLookup(form, "Age"); DetailsLookup(form, "Age"); MedicalLookup(form, "Age");
    AppointmentLookup(form, submittedAt, "Preferred Date");
    PersonalLookup(form, "Preferred Date"); DetailsLookup(form, "Preferred Date"); MedicalLookup(form, "Preferred Date");
    AppointmentLookup(form, submittedAt, "Preferred Time");
    PersonalLookup(form, "Preferred Time"); DetailsLookup(form, "Preferred Time"); MedicalLookup(form, "Preferred Time");
    AppointmentLookup(form, submittedAt, "Urgency");
    PersonalLookup(form, "Urgency"); DetailsLookup(form, "Urgency"); MedicalLookup(form, "Urgency");
    AppointmentLookup(form, submittedAt, "Pain Level (1-10)");
    PersonalLookup(form, "Pain Level (1-10)"); DetailsLookup(form, "Pain Level (1-10)"); MedicalLookup(form, "Pain Level (1-10)");
    AppointmentLookup(form, submittedAt, "Duration");
    PersonalLookup(form, "Duration"); DetailsLookup(form, "Duration"); MedicalLookup(form, "Duration");
    AppointmentLookup(form, submittedAt, "First time seeking physiotherapy");
    PersonalLookup(form, "First time seeking physiotherapy"); DetailsLookup(form, "First time seeking physiotherapy"); MedicalLookup(form, "First time seeking physiotherapy");
    AppointmentLookup(form, submittedAt, "Submitted at");
    PersonalLookup(form, "Submitted at"); DetailsLookup(form, "Submitted at"); MedicalLookup(form, "Submitted at");
    ClosingLookup(submittedAt, "Submitted at");
  }

  /** No placeholder field of the appointment body is ever blank. */
  lemma PlaceholdersNeverBlank(form: FieldMap, submittedAt: string)
    ensures forall caption :: caption in ["Age", "Preferred Date", "Preferred Time", "Urgency",
                                          "Pain Level (1-10)", "Duration", "First time seeking physiotherapy"]
              ==> FieldValue(AppointmentBody(form, submittedAt), caption).Some?
                  && FieldValue(AppointmentBody(form, submittedAt), caption).value != ""
  {
    AppointmentPlaceholders(form, submittedAt);
  }

  /** Fields without a placeholder show the posted text, or `None` when absent. */
  lemma AppointmentVerbatimFields(form: FieldMap, submittedAt: string)
    ensures FieldValue(AppointmentBody(form, submittedAt), "Phone") == Some(Show(Get(form, "phone")))
    ensures FieldValue(AppointmentBody(form, submittedAt), "Service Type") == Some(Show(Get(form, "service-type")))
    ensures FieldValue(AppointmentBody(form, submittedAt), "Consultation Type") == Some(Show(Get(form, "consultation-type")))
    ensures FieldValue(AppointmentBody(form, submittedAt), "Primary Condition") == Some(Show(Get(form, "message")))
    ensures "phone" !in form ==> FieldValue(AppointmentBody(form, submittedAt), "Phone") == Some("None")
  {
    AppointmentLookup(form, submittedAt, "Phone");
    PersonalLookup(form, "Phone"); DetailsLookup(form, "Phone"); MedicalLookup(form, "Phone");
    AppointmentLookup(form, submittedAt, "Service Type");
    PersonalLookup(form, "Service Type"); DetailsLookup(form, "Service Type"); MedicalLookup(form, "Service Type");
    AppointmentLookup(form, submittedAt, "Consultation Type");
    PersonalLookup(form, "Consultation Type"); DetailsLookup(form, "Consultation Type"); MedicalLookup(form, "Consultation Type");
    AppointmentLookup(form, submittedAt, "Primary Condition");
    PersonalLookup(form, "Primary Condition"); DetailsLookup(form, "Primary Condition"); MedicalLookup(form, "Primary Condition");
  }

  /** A reader of contact subject lines: the text after the fixed prefix, when
      the line has that prefix. The handler never parses a subject; this is the
      inverse the round trip below is stated against. */
  function ContactSubjectSender(subject: string): (r: Option<string>)
    ensures r.Some? <==> ContactSubjectPrefix <= subject
    ensures r.Some? ==> ContactSubjectPrefix + r.value == subject
  {
    if |ContactSubjectPrefix| <= |subject| && subject[..|ContactSubjectPrefix|] == ContactSubjectPrefix
    then Some(subject[|ContactSubjectPrefix|..])
    else None
  }

  /** The contact subject line gives the sender's name back. */
  lemma ContactSubjectRoundTrip(v: Variant, form: FieldMap)
    ensures ContactSubjectSender(Subject(v, Contact, form)) == Some(Show(Get(form, "name")))
  {
    var s := Subject(v, Contact, form);
    assert s[..|ContactSubjectPrefix|] == ContactSubjectPrefix;
    assert s[|ContactSubjectPrefix|..] == Show(Get(form, "name"));
  }

  /** An appointment subject starts with the deployment's mark, names the
      booker after the booking text, and ends with the consultation type in
      parentheses. */
  lemma AppointmentSubjectShape(v: Variant, form: FieldMap)
    ensures var s := Subject(v, Appointment, form);
            var head := v.subjectMark + AppointmentSubjectText;
            var tail := " (" + Show(Get(form, "consultation-type")) + ")";
            && |head| + |tail| <= |s|
            && s[..|v.subjectMark|] == v.subjectMark
            && s[|v.subjectMark|..|head|] == AppointmentSubjectText
            && s[|head|..|s| - |tail|] == Show(Get(form, "name"))
            && s[|s| - |tail|..] == tail
  {
    var s := Subject(v, Appointment, form);
    var head := v.subjectMark + AppointmentSubjectText;
    assert s[..|head|] == head;
    assert s[..|v.subjectMark|] == head[..|v.subjectMark|];
    assert s[|v.subjectMark|..|head|] == head[|v.subjectMark|..];
  }

  /** In both deployments an appointment subject never equals a contact subject,
      so the operator can tell them apart from the subject alone. */
  lemma SubjectRevealsKind(v: Variant, f: FieldMap, g: FieldMap)
    requires v == Production || v == Development
    ensures Subject(v, Appointment, f) != Subject(v, Contact, g)
  {
    assert Subject(v, Appointment, f)[0] == v.subjectMark[0];
    assert Subject(v, Contact, g)[0] == 'N';
  }

  // ---------------------------------------------------------------------------
  // The handler
  // ---------------------------------------------------------------------------

  /** The browser's response is the same whatever the relay does. */
  lemma ResponseIgnoresRelay(v: Variant, cfg: Config, form: FieldMap, submittedAt: string, r1: Relay, r2: Relay)
    ensures SubmitContact(v, cfg, form, submittedAt, r1).response
            == SubmitContact(v, cfg, form, submittedAt, r2).response
  {
  }

  /** An accepted submission is confirmed even when every relay command raises:
      the failed dispatch is reported but not shown. */
  lemma ConfirmedDespiteFailedDelivery(v: Variant, cfg: Config, form: FieldMap, submittedAt: string)
    requires Check(v.policy, form).None?
    ensures var h := SubmitContact(v, cfg, form, submittedAt, (c: SmtpCommand) => true);
            && h.response.Confirmation?
            && h.delivery.Some?
            && !h.delivery.value.report.sent
  {
    var h := SubmitContact(v, cfg, form, submittedAt, (c: SmtpCommand) => true);
    var m := h.delivery.value.mail;
    if CredentialsSet(cfg) && RelayPort(cfg).Some? {
      assert ConfiguredExchange(cfg, m.recipient, m.subject, m.body)[0] in ConfiguredExchange(cfg, m.recipient, m.subject, m.body);
    }
  }

  /** application.py always mails the operator account MAIL_USERNAME, whatever
      was posted; when that is unset or empty nothing is sent. */
  lemma ProductionMailsOperator(cfg: Config, form: FieldMap, submittedAt: string, raises: Relay)
    requires Check(Strict, form).None?
    ensures var h := SubmitContact(Production, cfg, form, submittedAt, raises);
            && h.delivery.Some?
            && h.delivery.value.mail.recipient == cfg.mailUsername
            && (!Truthy(cfg.mailUsername) ==> h.delivery.value.report == DispatchReport(false, []))
  {
  }

  /** app_simple.py mails MAIL_DEFAULT_SENDER when it is set, even to an empty
      value, and otherwise mails the notification to the submitter's own address. */
  lemma DevelopmentRecipientFallback(cfg: Config, form: FieldMap, submittedAt: string, raises: Relay)
    requires Check(Lenient, form).None?
    ensures var h := SubmitContact(Development, cfg, form, submittedAt, raises);
            && h.delivery.Some?
            && (cfg.mailDefaultSender.Some? ==> h.delivery.value.mail.recipient == cfg.mailDefaultSender)
            && (cfg.mailDefaultSender.None? ==> h.delivery.value.mail.recipient == Some(form["email"]))
  {
  }

  /** The booking of a patient who fills in every required appointment field. */
  const JaneDoeBooking: FieldMap :=
    map[ "name" := "Jane Doe", "email" := "jane@example.com", "service" := "appointment-booking"
       , "service-type" := "Back Pain", "consultation-type" := "Video", "message" := "Lower back pain" ]

  /** That booking satisfies every check of the strict policy. */
  lemma JaneDoePassesStrictChecks()
    ensures Classify(JaneDoeBooking) == Appointment
    ensures Check(Strict, JaneDoeBooking).None?
  {
    var form := JaneDoeBooking;
    assert form["service"] == AppointmentSentinel;
    assert form["name"] == "Jane Doe" && form["email"] == "jane@example.com";
    assert form["message"] == "Lower back pain";
    assert form["service-type"] == "Back Pain" && form["consultation-type"] == "Video";
    StrictAppointmentChecksInOrder(form);
  }

  /** Its subject line names the patient and the consultation type. */
  lemma JaneDoeSubject()
    ensures Subject(Production, Appointment, JaneDoeBooking)
            == Production.subjectMark + " NEW APPOINTMENT BOOKING - Jane Doe (Video)"
  {
    assert JaneDoeBooking["name"] == "Jane Doe" && JaneDoeBooking["consultation-type"] == "Video";
    assert Show(Get(JaneDoeBooking, "name")) == "Jane Doe";
    assert Show(Get(JaneDoeBooking, "consultation-type")) == "Video";
    var head := Production.subjectMark + AppointmentSubjectText;
    assert Subject(Production, Appointment, JaneDoeBooking) == head + "Jane Doe" + " (Video)";
  }

  /** Under application.py that booking is confirmed as an appointment and is
      announced as `... NEW APPOINTMENT BOOKING - Jane Doe (Video)`. */
  lemma JaneDoeIsBooked(cfg: Config, submittedAt: string, raises: Relay)
    ensures var h := SubmitContact(Production, cfg, JaneDoeBooking, submittedAt, raises);
            && h.response == Confirmation("Jane Doe", true, AppointmentThanks)
            && h.delivery.Some?
            && h.delivery.value.mail.subject == Production.subjectMark + " NEW APPOINTMENT BOOKING - Jane Doe (Video)"
  {
    JaneDoePassesStrictChecks();
    JaneDoeSubject();
    assert Get(JaneDoeBooking, "name") == Some("Jane Doe");
  }
}

=== FILE: tracking.dfy ===
/** The engagement trackers of `initGoogleAdsTracking`: the scroll-depth
    thresholds and the time-on-page milestones, as immutable state records
    whose steps return the `gtag` events they emit. */
module Tracking {
  import opened Base
  import opened PyInt

  /** One `gtag('event', action, {event_category, event_label, value})` call. */
  datatype GtagEvent = GtagEvent(action: string, category: string, eventLabel: string, value: Option<string>)

  const Engagement: string := "engagement"

  // ---------------------------------------------------------------------------
  // Scroll depth
  // ---------------------------------------------------------------------------

  /** The keys of `scrollTracked`, in the order `Object.keys` lists them. */
  const Thresholds: seq<nat> := [25, 50, 75, 100]

  /** The thresholds whose flag has been set to `true`. */
  datatype ScrollTracker = ScrollTracker(fired: set<nat>)

  /** All four flags `false`, as on page load. */
  const FreshScroll: ScrollTracker := ScrollTracker({})

  /** The event sent the first time the page is scrolled past `t` percent. */
  function ScrollEvent(t: nat): GtagEvent {
    GtagEvent("scroll", Engagement, DecimalString(t) + "_percent", Some(DecimalString(t)))
  }

  /** The tracker after one scroll, and the thresholds that fired on it, in order. */
  datatype Scrolled = Scrolled(tracker: ScrollTracker, newly: seq<nat>)

  predicate StrictlyIncreasing(s: seq<nat>) {
    forall a, b :: 0 <= a < b < |s| ==> s[a] < s[b]
  }

  /** The `forEach` over the keys from position `i` on. */
  function ScrollFrom(fired: set<nat>, percent: int, i: nat): (r: Scrolled)
    requires i <= |Thresholds|
    // the thresholds fired are exactly the remaining unfired ones at or below the percent ...
    ensures forall t :: t in r.newly <==> t in Thresholds[i..] && t <= percent && t !in fired
    // ... each once, in increasing order ...
    ensures StrictlyIncreasing(r.newly)
    // ... and they are the only flags that change
    ensures forall t :: t in r.tracker.fired <==> t in fired || t in r.newly
    decreases |Thresholds| - i
  {
    if i == |Thresholds| then Scrolled(ScrollTracker(fired), [])
    else
      var t := Thresholds[i];
      var rest := ScrollFrom(if percent >= t && t !in fired then fired + {t} else fired, percent, i + 1);
      assert Thresholds[i..] == [t] + Thresholds[i + 1..];
      ThresholdsIncrease(i, rest.newly);
      IncreasingCons(t, rest.newly);
      if percent >= t && t !in fired then Scrolled(rest.tracker, [t] + rest.newly)
      else rest
  }

  /** The keys are listed in increasing order. */
  lemma ThresholdsIncrease(i: nat, later: seq<nat>)
    requires i < |Thresholds|
    requires forall u :: u in later ==> u in Thresholds[i + 1..]
    ensures forall u :: u in later ==> Thresholds[i] < u
  {
  }

  lemma IncreasingCons(t: nat, s: seq<nat>)
    requires StrictlyIncreasing(s)
    requires forall u :: u in s ==> t < u
    ensures StrictlyIncreasing([t] + s)
  {
    forall a, b | 0 <= a < b < |[t] + s| ensures ([t] + s)[a] < ([t] + s)[b] {
      assert ([t] + s)[b] == s[b - 1];
      assert s[b - 1] in s;
    }
  }

  /** One `scroll` event handler call with the rounded scroll percentage. */
  function OnScroll(tracker: ScrollTracker, percent: int): (r: Scrolled)
    ensures forall t :: t in r.newly <==> t in Thresholds && t <= percent && t !in tracker.fired
    ensures StrictlyIncreasing(r.newly)
    ensures tracker.fired <= r.tracker.fired
    ensures forall t :: t in r.tracker.fired <==> t in tracker.fired || t in r.newly
  {
    assert Thresholds[0..] == Thresholds;
    ScrollFrom(tracker.fired, percent, 0)
  }

  /** The events one scroll sends, one per threshold fired, in the same order. */
  function ScrollEvents(newly: seq<nat>): (evs: seq<GtagEvent>)
    ensures |evs| == |newly|
    ensures forall k :: 0 <= k < |newly| ==> evs[k] == ScrollEvent(newly[k])
  {
    if newly == [] then [] else [ScrollEvent(newly[0])] + ScrollEvents(newly[1..])
  }

  /** The labels and values the four thresholds are reported with. */
  lemma ScrollEventTexts()
    ensures ScrollEvent(25) == GtagEvent("scroll", "engagement", "25_percent", Some("25"))
    ensures ScrollEvent(50) == GtagEvent("scroll", "engagement", "50_percent", Some("50"))
    ensures ScrollEvent(75) == GtagEvent("scroll", "engagement", "75_percent", Some("75"))
    ensures ScrollEvent(100) == GtagEvent("scroll", "engagement", "100_percent", Some("100"))
  {
    assert DecimalString(2) == "2" && DecimalString(25) == "25";
    assert DecimalString(5) == "5" && DecimalString(50) == "50";
    assert DecimalString(7) == "7" && DecimalString(75) == "75";
    assert DecimalString(1) == "1" && DecimalString(10) == "10" && DecimalString(100) == "100";
  }

  /** A series of scrolls: the final tracker and every threshold fired, in firing order. */
  function RunScroll(tracker: ScrollTracker, percents: seq<int>): (r: Scrolled)
    // flags only go from false to true ...
    ensures tracker.fired <= r.tracker.fired
    // ... and only thresholds that had not fired yet are reported
    ensures forall t :: t in r.newly ==> t in Thresholds && t !in tracker.fired
    decreases |percents|
  {
    if percents == [] then Scrolled(tracker, [])
    else
      var first := OnScroll(tracker, percents[0]);
      var rest := RunScroll(first.tracker, percents[1..]);
      Scrolled(rest.tracker, first.newly + rest.newly)
  }

  predicate NoDuplicates(s: seq<nat>) {
    forall a, b :: 0 <= a < b < |s| ==> s[a] != s[b]
  }

  /** Some scroll of the series got at least `t` percent down the page. */
  predicate Reaches(percents: seq<int>, t: int) {
    exists p :: p in percents && t <= p
  }

  lemma ReachesCons(percents: seq<int>, t: int)
    requires percents != []
    ensures Reaches(percents, t) <==> t <= percents[0] || Reaches(percents[1..], t)
  {
    assert percents[0] in percents;
    if Reaches(percents, t) {
      var p :| p in percents && t <= p;
      if p != percents[0] {
        assert p in percents[1..];
      }
    }
    if Reaches(percents[1..], t) {
      var p :| p in percents[1..] && t <= p;
      assert p in percents;
    }
  }

  lemma NoDuplicatesAppend(a: seq<nat>, b: seq<nat>)
    requires NoDuplicates(a) && NoDuplicates(b)
    requires forall t :: t in a ==> t !in b
    ensures NoDuplicates(a + b)
  {
    forall i, j | 0 <= i < j < |a + b| ensures (a + b)[i] != (a + b)[j] {
      if i < |a| && j >= |a| {
        assert (a + b)[i] in a;
        assert (a + b)[j] == b[j - |a|];
      }
    }
  }

  /** Over any series of scrolls each threshold fires at most once, it fires
      exactly when some scroll reached it and it had not fired before, and a
      flag, once set, stays set. */
  lemma {:induction false} ScrollTrace(tracker: ScrollTracker, percents: seq<int>)
    ensures var r := RunScroll(tracker, percents);
            && NoDuplicates(r.newly)
            && (forall t :: t in r.newly <==> t in Thresholds && t !in tracker.fired && Reaches(percents, t))
            && (forall t :: t in r.tracker.fired <==> t in tracker.fired || t in r.newly)
    decreases |percents|
  {
    if percents != [] {
      var first := OnScroll(tracker, percents[0]);
      var rest := RunScroll(first.tracker, percents[1..]);
      ScrollTrace(first.tracker, percents[1..]);
      NoDuplicatesAppend(first.newly, rest.newly);
      forall t ensures Reaches(percents, t) <==> t <= percents[0] || Reaches(percents[1..], t) {
        ReachesCons(percents, t);
      }
    }
  }

  /** From page load, a threshold is reported exactly once if some scroll reached it and never otherwise. */
  lemma FreshScrollTrace(percents: seq<int>)
    ensures var r := RunScroll(FreshScroll, percents);
            && NoDuplicates(r.newly)
            && forall t :: t in r.newly <==> t in Thresholds && Reaches(percents, t)
  {
    ScrollTrace(FreshScroll, percents);
  }

  /** The `gtag` events a series of scrolls sends, scroll by scroll. */
  function ScrollSeriesEvents(tracker: ScrollTracker, percents: seq<int>): seq<GtagEvent>
    decreases |percents|
  {
    if percents == [] then []
    else
      var first := OnScroll(tracker, percents[0]);
      ScrollEvents(first.newly) + ScrollSeriesEvents(first.tracker, percents[1..])
  }

  lemma ScrollEventsAppend(a: seq<nat>, b: seq<nat>)
    ensures ScrollEvents(a + b) == ScrollEvents(a) + ScrollEvents(b)
  {
    var l, r := ScrollEvents(a + b), ScrollEvents(a) + ScrollEvents(b);
    forall k | 0 <= k < |l| ensures l[k] == r[k] {
      if k >= |a| {
        assert (a + b)[k] == b[k - |a|];
      }
    }
  }

  /** A series of scrolls sends one event for each threshold it fires, in firing order. */
  lemma {:induction false} ScrollSeriesSendsFired(tracker: ScrollTracker, percents: seq<int>)
    ensures ScrollSeriesEvents(tracker, percents) == ScrollEvents(RunScroll(tracker, percents).newly)
    decreases |percents|
  {
    if percents != [] {
      var first := OnScroll(tracker, percents[0]);
      ScrollSeriesSendsFired(first.tracker, percents[1..]);
      ScrollEventsAppend(first.newly, RunScroll(first.tracker, percents[1..]).newly);
    }
  }

  /** Different thresholds are reported differently. */
  lemma ScrollEventInjective(t: nat, u: nat)
    requires ScrollEvent(t) == ScrollEvent(u)
    ensures t == u
  {
    DecimalRoundTrip(t);
    DecimalRoundTrip(u);
  }

  /** From page load, the scroll events sent over any series are all different,
      and the event for a threshold is sent exactly when some scroll reached it. */
  lemma FreshScrollEvents(percents: seq<int>)
    ensures var evs := ScrollSeriesEvents(FreshScroll, percents);
            && (forall a, b :: 0 <= a < b < |evs| ==> evs[a] != evs[b])
            && (forall t: nat :: ScrollEvent(t) in evs <==> t in Thresholds && Reaches(percents, t))
  {
    var newly := RunScroll(FreshScroll, percents).newly;
    var evs := ScrollSeriesEvents(FreshScroll, percents);
    ScrollSeriesSendsFired(FreshScroll, percents);
    FreshScrollTrace(percents);
    forall a, b | 0 <= a < b < |evs| ensures evs[a] != evs[b] {
      if evs[a] == evs[b] {
        ScrollEventInjective(newly[a], newly[b]);
        assert false;
      }
    }
    forall t: nat ensures ScrollEvent(t) in evs <==> t in newly {
      if ScrollEvent(t) in evs {
        var k :| 0 <= k < |evs| && evs[k] == ScrollEvent(t);
        ScrollEventInjective(newly[k], t);
      }
      if t in newly {
        var k :| 0 <= k < |newly| && newly[k] == t;
        assert evs[k] == ScrollEvent(t);
      }
    }
  }

  // ---------------------------------------------------------------------------
  // Time on page
  // ---------------------------------------------------------------------------

  /** `timeOnPage` and whether the 30-second interval is still scheduled. */
  datatype TimeTracker = TimeTracker(seconds: int, running: bool)

  /** `timeOnPage = 0` with the interval just set. */
  const FreshTime: TimeTracker := TimeTracker(0, true)

  const TickSeconds: int := 30

  /** The milestone label reached at a given time on page, if any. */
  function MilestoneLabel(seconds: int): Option<string> {
    if seconds == 30 then Some("30_seconds")
    else if seconds == 120 then Some("2_minutes")
    else if seconds == 300 then Some("5_minutes")
    else None
  }

  function TimeEvent(milestone: string): GtagEvent {
    GtagEvent("time_on_page", Engagement, milestone, None)
  }

  /** The tracker after one interval callback, and the event it sent. */
  datatype Ticked = Ticked(tracker: TimeTracker, event: Option<GtagEvent>)

  /** One interval callback; a cleared interval never calls back again. */
  function Tick(tracker: TimeTracker): (r: Ticked)
    // a cleared interval changes nothing and sends nothing
    ensures !tracker.running ==> r == Ticked(tracker, None)
    // a running one adds 30 seconds and stops exactly at five minutes
    ensures tracker.running ==>
              r.tracker == TimeTracker(tracker.seconds + TickSeconds, tracker.seconds + TickSeconds != 300)
    // an event is sent only at a milestone, carrying that milestone's label
    ensures r.event.Some? <==> tracker.running && MilestoneLabel(r.tracker.seconds).Some?
    ensures r.event.Some? ==> r.event.value == TimeEvent(MilestoneLabel(r.tracker.seconds).value)
  {
    if !tracker.running then Ticked(tracker, None)
    else
      var seconds := tracker.seconds + TickSeconds;
      var event := match MilestoneLabel(seconds)
        case Some(milestone) => Some(TimeEvent(milestone))
        case None => None;
      Ticked(TimeTracker(seconds, seconds != 300), event)
  }

  function EventList(e: Option<GtagEvent>): seq<GtagEvent> {
    match e
    case Some(ev) => [ev]
    case None => []
  }

  /** `n` interval callbacks: the final tracker and every event sent, in order. */
  function Ticks(tracker: TimeTracker, n: nat): (r: (TimeTracker, seq<GtagEvent>))
    // a cleared interval never calls back
    ensures !tracker.running ==> r == (tracker, [])
    // a tracker still running after n callbacks has gained 30 seconds for each
    ensures r.0.running ==> r.0.seconds == tracker.seconds + TickSeconds * n
    // at most one event per callback
    ensures |r.1| <= n
  {
    if n == 0 then (tracker, [])
    else
      var (before, events) := Ticks(tracker, n - 1);
      var last := Tick(before);
      (last.tracker, events + EventList(last.event))
  }

  /** The milestone events sent once `m` ticks have run (at most ten count). */
  function MilestonesReached(m: nat): seq<GtagEvent> {
    (if m >= 1 then [TimeEvent("30_seconds")] else [])
    + (if m >= 4 then [TimeEvent("2_minutes")] else [])
    + (if m >= 10 then [TimeEvent("5_minutes")] else [])
  }

  function Min(a: nat, b: nat): nat {
    if a <= b then a else b
  }

  /** After `n` callbacks from page load the clock reads 30 seconds per tick up
      to five minutes, the interval is cleared from the tenth tick on, and the
      events sent are the milestones reached so far, in time order. */
  lemma {:induction false} TimeTrace(n: nat)
    ensures Ticks(FreshTime, n).0 == TimeTracker(TickSeconds * Min(n, 10), n < 10)
    ensures Ticks(FreshTime, n).1 == MilestonesReached(Min(n, 10))
  {
    if n > 0 {
      TimeTrace(n - 1);
      if n <= 10 {
        var before := Ticks(FreshTime, n - 1).0;
        assert before.seconds + TickSeconds == TickSeconds * n;
      }
    }
  }

  /** The three milestones are sent in the order 30 seconds, 2 minutes, 5 minutes, and then no more. */
  lemma MilestonesInOrder(n: nat)
    ensures n >= 10 ==>
              Ticks(FreshTime, n).1 == [TimeEvent("30_seconds"), TimeEvent("2_minutes"), TimeEvent("5_minutes")]
    ensures |Ticks(FreshTime, n).1| <= 3
  {
    TimeTrace(n);
  }
}
